=== FILE: README.md ===
# Mindful Pages: UK day keys, riddle entry page, rating and trading filters

This project models the integer and string logic inside the page scripts of the
Mindful Pages book-trading site. The model is written in Dafny and its
properties are proved there. It covers four parts:

- **UK day keys** (`src/public/DateUtils.js`, repeated in `src/pages/Riddles.tqhe5.js`).
  The code treats the host's 0-based month index 3..9 (April to October) as
  daylight saving time. In those months it shifts the current instant by a
  fixed 60 minutes. It then keeps the `YYYY-MM-DD` part of
  `toISOString()`. The model spells out each step:
  - the calendar that ECMA-262 gives `Date` objects (`Calendar`);
  - the Date Time String Format, including expanded years (`IsoDate`);
  - `split('T')[0]`;
  - the shift itself (`DateUtils`).
- **The riddles entry page** (`src/pages/Riddles.tqhe5.js`). It models:
  - the "Already Completed Today" gate on the play button;
  - the max-streak text;
  - `getCurrentStreak`. This picks the user's `DailyStats` row with the
    greatest date key on or before yesterday's key, and falls back to 0.
- **The rating lightbox** (`src/pages/RatingLightbox.a2p9h.js`). It models:
  - the context guard;
  - the accept/reject rule for the typed rating;
  - the `trader ratings` row that is inserted;
  - how the handler ends.
- **The trading page** (`src/pages/Trading.x9sra.js`). It models:
  - genre tags toggled over the fixed genre list;
  - `selectedGenres` rebuilt from the tags;
  - the `books` query `loadListings` builds, as a list of conditions with
    their store meaning;
  - the personal-summary and traded-button display decisions.

Store queries are modelled as the collection they read, passed in as a
sequence. A query or call that can throw is passed in as a `Result`. What the
page shows is returned as a value.

The riddle game itself is in `src/pages/Riddles game.jjqrt.js`, which is not part of this model.

Modules, one per file: `Wrappers`, `Sequences`, `StringOrder`, `Decimal`, `JsText`,
`Calendar`, `IsoDate`, `DateUtils`, `RiddlesPage`, `RatingLightbox`,
`TradingPage`.

Some things the proofs turned up about the code as written:

- On a UTC host, from 23:00 to 24:00 UTC on 1 November, yesterday's key equals
  today's key. The lookup "on or before yesterday" then also finds today's row.
  On 1 April during the same hour, yesterday's key is two days before today's.
  Both follow from the whole-month DST rule combined with "yesterday = 24 hours
  earlier". They are proved on concrete instants
  (`RiddlesPage.YesterdayKeyRepeatsAfterOctober`,
  `RiddlesPage.YesterdayKeySkipsAtApril`).
- The store compares date keys as strings. For keys whose year has four digits,
  that order is exactly calendar order (`IsoDate.DayKeyOrder`), so the streak
  lookup does pick the chronologically latest row
  (`RiddlesPage.LatestIsChronological`).

## Model

| member | source | states |
|---|---|---|
| `Calendar.CivilFromDays` | src/public/DateUtils.js:14-16 | The date `toISOString` prints for a day number is a real calendar date (month 1-12, day within the month's length), and converting it back gives the same day number |
| `Calendar.CivilRoundTrip` | src/public/DateUtils.js:14-16 | Every valid calendar date converts to a day number and back to itself, so dates and day numbers correspond one to one |
| `Calendar.CivilOrder` | src/public/DateUtils.js:14-16 | A smaller day number gives an earlier date and the converse holds as well |
| `Calendar.YearOfDay` | src/public/DateUtils.js:14-16 | The printed year is ECMA-262's `YearFromTime`: the last year whose January 1st (the standard's closed-form `DayFromYear`) is on or before the day |
| `Calendar.DayFromYearStep` | src/public/DateUtils.js:14-16 | The standard's closed-form January 1st of year y+1 is exactly the length of year y (365 or 366 by the Gregorian leap rule) after that of year y |
| `Calendar.DaysFromCivilMonotone` | src/public/DateUtils.js:14-16 | A later calendar date has a strictly larger day number |
| `IsoDate.TimeClip` | src/public/DateUtils.js:6 | `new Date(x)` is a valid date exactly when abs(x) is at most 8.64e15 ms, and it then keeps x unchanged |
| `IsoDate.SplitHead` | src/public/DateUtils.js:16 | `split(sep)[0]` is a prefix of the string, contains no separator, and is followed by the separator unless it is the whole string |
| `IsoDate.ToIsoString` | src/public/DateUtils.js:15 | `toISOString()` throws exactly on an invalid date. Otherwise it is 14 characters longer than the date of the instant, ends in `Z`, and its text before the first `T` is that date |
| `IsoDate.IsoDatePart` | src/public/DateUtils.js:14-16 | `toISOString().split('T')[0]` throws exactly on an invalid date, and is otherwise exactly the date string of the day that contains the instant |
| `IsoDate.YearStringExact` | src/public/DateUtils.js:15 | For every valid time value the year is printed in full: four digits reading back as the year for 0..9999, otherwise a sign and six digits reading back as its magnitude, so nothing is cut off |
| `IsoDate.DayKeyRoundTrip` | src/public/DateUtils.js:14-16 | For years 0..9999 the key has 10 characters: four-digit year, `-`, two-digit month, `-`, two-digit day. Parsing it gives a valid date whose day number is the day the key names |
| `IsoDate.DayKeyOrder` | src/pages/Riddles.tqhe5.js:60-65 | For four-digit years, one key sorts before another as a string exactly when its day is earlier, and two keys are equal exactly when their days are |
| `Decimal.PadOrder` | src/pages/Riddles.tqhe5.js:60-65 | Zero-padded fields of one width sort as strings exactly as their values sort as numbers |
| `Decimal.PadRoundTrip` | src/public/DateUtils.js:15 | A zero-padded field of the ISO string reads back as the number written, when the number fits the width |
| `Decimal.NatToStringRoundTrip` | src/pages/Riddles.tqhe5.js:35-39 | The decimal text shown for a streak counter reads back as that counter |
| `DateUtils.UkShift` | src/public/DateUtils.js:4-6 | The shifted time is `now` + 3,600,000 ms exactly when the 0-based month index is 3 through 9 (April to October). Otherwise it is `now` |
| `DateUtils.UkDate` | src/public/DateUtils.js:2-7 | `getUKDate()` is never earlier than `now` and at most one hour later. Outside DST it is `now` itself. In DST it is exactly `now` + 3,600,000 ms whenever that is a valid time. It is an invalid date exactly when a DST shift goes past the time range |
| `DateUtils.UkDateAsString` | src/public/DateUtils.js:9-17 | `getUKDateAsString()` throws exactly when the shifted time leaves the valid range. Otherwise it is the key of the day that contains the shifted instant |
| `DateUtils.UkDateAsStringAgrees` | src/public/DateUtils.js:2-17 | For the same `now`, `getUKDateAsString()` is the day key of the instant `getUKDate()` returns. It throws exactly when that instant is invalid |
| `DateUtils.KeyOutsideDst` | src/public/DateUtils.js:12-16 | Outside the DST months the key is the UTC calendar date of `now` |
| `DateUtils.UkKeyRoundTrip` | src/public/DateUtils.js:14-16 | For four-digit years the UK key is a 10-character `YYYY-MM-DD` naming a valid date. Parsing it gives `floor(shifted / 86400000)` |
| `DateUtils.UtcMonthIndex` | src/public/DateUtils.js:4 | `getMonth()` on a UTC host is a month index 0..11 |
| `DateUtils.DstOnUtcHost` | src/public/DateUtils.js:4 | On a UTC host the DST test `IsDst` holds exactly when the UTC calendar month of `now` is April through October |
| `RiddlesPage.FormatUkDate` | src/pages/Riddles.tqhe5.js:74-81 | `formatUKDate(date)` throws on an invalid date or when the shift leaves the valid range. Otherwise it is the key of the day that contains the shifted instant |
| `RiddlesPage.TodayKey` | src/pages/Riddles.tqhe5.js:83-91 | `getUKDateString()` throws exactly when the shift leaves the valid range. Otherwise it is the key of the day that contains the shifted instant |
| `RiddlesPage.TodayKeyAgrees` | src/pages/Riddles.tqhe5.js:74-91 | `getUKDateString()` and `formatUKDate(now)` give the same key, the same as the shared helper's. It is the day key of the shifted instant, and they throw when that instant is out of range |
| `RiddlesPage.Yesterday` | src/pages/Riddles.tqhe5.js:55-56 | Going back one day with `setDate` on a UTC host gives a valid date exactly when `now` minus 86,400,000 ms is inside the time range. That date is exactly 86,400,000 ms earlier, on the previous day number |
| `RiddlesPage.LatestOnOrBefore` | src/pages/Riddles.tqhe5.js:60-65 | The row chosen belongs to the user and has a date key on or before the given key. Every such row has a date key no greater than the chosen one's. The result is absent exactly when no such row exists |
| `RiddlesPage.CurrentStreak` | src/pages/Riddles.tqhe5.js:52-72 | `getCurrentStreak()` is 0 when yesterday's key throws, the query fails, or the user has no row dated on or before yesterday's key. Otherwise it is the `currentStreak` of such a row whose date key no other such row exceeds, ties included |
| `RiddlesPage.CurrentStreakIsLatest` | src/pages/Riddles.tqhe5.js:60-67 | When one row of the user is strictly latest on or before yesterday's key, its streak is the one returned |
| `RiddlesPage.LatestIsChronological` | src/pages/Riddles.tqhe5.js:60-65 | When dates are keys of four-digit-year days, the string test `date <= key` means "on or before yesterday". The chosen row has the latest such day |
| `RiddlesPage.YesterdayKeyRepeatsAfterOctober` | src/pages/Riddles.tqhe5.js:55-57 | At 2025-11-01T23:30Z on a UTC host, today's key and yesterday's key are both 2025-11-01 |
| `RiddlesPage.YesterdayKeySkipsAtApril` | src/pages/Riddles.tqhe5.js:55-57 | At 2025-04-01T23:30Z on a UTC host, today's key is 2025-04-02 and yesterday's is 2025-03-31 |
| `RiddlesPage.FirstTodayIndex` | src/pages/Riddles.tqhe5.js:16-20 | `items[0]` of the today query is the first row matching both user and date. No earlier row matches |
| `RiddlesPage.TodayRow` | src/pages/Riddles.tqhe5.js:16-20 | Today's row is absent exactly when no row matches the user and today's key. Otherwise it is the first matching row |
| `RiddlesPage.FirstUserIndex` | src/pages/Riddles.tqhe5.js:29-32 | The index of the first `UserStats` row of the user. No earlier row belongs to the user |
| `RiddlesPage.UserRow` | src/pages/Riddles.tqhe5.js:29-32 | The `UserStats` row (`items[0]`) is absent exactly when the user has none. Otherwise it is the user's first row |
| `RiddlesPage.MaxStreakText` | src/pages/Riddles.tqhe5.js:35 | The max-streak text is "0" without a `UserStats` row. Otherwise it is decimal digits reading back as the row's `maxStreak`, with no leading zero unless the text is "0" |
| `Decimal.NatToString` | src/pages/Riddles.tqhe5.js:35-39 | `toString()` of a non-negative integer is a non-empty run of decimal digits that starts with `0` only when it is "0" |
| `RiddlesPage.EntryPage` | src/pages/Riddles.tqhe5.js:13-39 | The page fails exactly when today's key throws. The play button is disabled and relabelled "Already Completed Today" exactly when today's first row exists and its `riddlesSolved` has exactly 3 entries. The counters show the max-streak text and `getCurrentStreak()`. The streak comes from a second clock read, which may be on a later UK day than the read behind today's key |
| `RiddlesPage.PlayEnabledUnlessThreeSolved` | src/pages/Riddles.tqhe5.js:23-26 | With no row for today, or only rows whose solved list is not of length 3, the play button stays enabled |
| `JsText.ParseInt` | src/pages/RatingLightbox.a2p9h.js:40 | `parseInt` with no radix reads hexadecimal after a `0x`/`0X` that follows the leading white space and optional sign, and decimal otherwise. It is NaN exactly when no digit of that radix comes next. Otherwise its magnitude is the value of the longest run of such digits, and it is negative after a `-` |
| `RatingLightbox.OnReady` | src/pages/RatingLightbox.a2p9h.js:10-18 | Handlers are installed only when the context exists and carries a non-empty `bookId`. Otherwise the lightbox closes |
| `RatingLightbox.AcceptRating` | src/pages/RatingLightbox.a2p9h.js:44-48 | A parsed rating is accepted exactly when it is an integer 1..5, and it is then kept unchanged. NaN and 0 are rejected |
| `RatingLightbox.DecimalRatingAccepted` | src/pages/RatingLightbox.a2p9h.js:40-48 | Typed decimal input, with any leading white space or trailing non-digit text, is accepted as n exactly when n is 1..5. A lone "0" followed by `x` or `X` is left to the hexadecimal lemma below |
| `RatingLightbox.HexRatingAccepted` | src/pages/RatingLightbox.a2p9h.js:40-48 | Typed hexadecimal input after `0x`/`0X` ("0x3") is read as its hexadecimal value and accepted exactly when that value is 1..5 |
| `RatingLightbox.NoDigitsRejected` | src/pages/RatingLightbox.a2p9h.js:40-44 | Input with no digit after the white space and sign parses to NaN and is rejected |
| `RatingLightbox.SubmitRating` | src/pages/RatingLightbox.a2p9h.js:38-75 | A rejected rating shows the error and inserts nothing. Otherwise, if the book loads, the row inserted has the current user as `fromUserId`, the owner as `toUserId`, the validated rating, the comment, the timestamp, `bookId` as `tradeId` and the book's title. Success (close and open the success lightbox) happens exactly when that insert succeeds. Each failure shows "Error submitting rating: " plus its message |
| `TradingPage.Toggle` | src/pages/Trading.x9sra.js:132-133 | A click flips the clicked tag's flag and leaves every other tag unchanged |
| `TradingPage.Selected` | src/pages/Trading.x9sra.js:134-135 | `selectedGenres` has one entry per selected tag, and each entry is a genre of the list |
| `TradingPage.SelectedMembers` | src/pages/Trading.x9sra.js:134-135 | A genre is in `selectedGenres` exactly when one of its tags is selected |
| `TradingPage.SelectedIsSubsequence` | src/pages/Trading.x9sra.js:128-135 | `selectedGenres` keeps the genre list's order |
| `TradingPage.SelectedDistinct` | src/pages/Trading.x9sra.js:128-135 | Over a list without repeats, `selectedGenres` has no repeats |
| `TradingPage.GenresDistinct` | src/pages/Trading.x9sra.js:104-111 | The 30 genre names are pairwise different |
| `TradingPage.SelectionWellFormed` | src/pages/Trading.x9sra.js:104-135 | When `selectedGenres` was rebuilt from the tags, it is a repeat-free subsequence of the genre list made of exactly the selected tags' genres |
| `TradingPage.InitialState` | src/pages/Trading.x9sra.js:7-8 | At load no tag is selected, `selectedGenres` is empty and agrees with the tags, and the distance bound is 50 |
| `TradingPage.ClickTag` | src/pages/Trading.x9sra.js:132-136 | After a click `selectedGenres` agrees with the tags again. The clicked genre enters or leaves it, and no other genre changes membership |
| `TradingPage.ClickTwice` | src/pages/Trading.x9sra.js:133-135 | Clicking the same tag twice restores the previous state, `selectedGenres` included |
| `TradingPage.SlideTo` | src/pages/Trading.x9sra.js:148-151 | Moving the slider sets the distance bound and leaves the genre selection as it was |
| `TradingPage.QualifiesIff` | src/pages/Trading.x9sra.js:164-188 | A listing satisfies the conditions `BuildQuery` chains exactly when all of these hold: it is `"active"`; it is owned by the user if "my listings" is on, or by someone else if it is off; it shares a genre with the selection, when the selection is non-empty; its `maxDistance` is at most the slider value |
| `TradingPage.Filter` | src/pages/Trading.x9sra.js:191 | The query returns the matching rows in store order. Each matching row appears as often as it occurs in the collection, and no other row appears |
| `TradingPage.LoadListings` | src/pages/Trading.x9sra.js:158-204 | A failing query opens the error lightbox with "Error loading listings: " plus its message. Otherwise the repeater shows the matching listings, each as often as it occurs, or "no results" when none match |
| `TradingPage.OwnershipSplitsListings` | src/pages/Trading.x9sra.js:168-172 | The listings found with "my listings" on and with it off are disjoint |
| `TradingPage.HasPersonalSummary` | src/pages/Trading.x9sra.js:226-239 | The personal summary is shown exactly when the description is present and has a character that is not white space |
| `TradingPage.TradedButtonFollowsToggle` | src/pages/Trading.x9sra.js:267 | Among shown listings the traded button (`TradedButtonVisible`: owned by the user) is visible on all of them when "my listings" is on, and on none when it is off |
| `JsText.Trim` | src/pages/Trading.x9sra.js:227 | `trim()` returns the slice of the string between its leading and trailing white space. The result neither starts nor ends with white space |
| `JsText.TrimEmptyIffAllSpace` | src/pages/Trading.x9sra.js:226-227 | `s.trim() === ""` exactly when every character of `s` is ECMA-262 white space or a line terminator |
| `JsText.ParseIntOfNatToString` | src/pages/RatingLightbox.a2p9h.js:40 | `parseInt` reads back the decimal form of a non-negative integer, after leading white space and before text that does not start with a digit. For 0 that text must not start with `x` or `X`, which would make a hexadecimal prefix |
| `JsText.ParseIntOfHex` | src/pages/RatingLightbox.a2p9h.js:40 | `parseInt` reads `0x`/`0X` followed by hexadecimal digits, after leading white space and before text that does not start with a hexadecimal digit, as the digits' hexadecimal value |

## Left out

- Calls into the site platform: `wixData` queries, `get`, `insert` and `update`; `wixWindow` lightboxes; `wixLocation.to`; `currentUser`. These are foreign APIs. Query results are passed in as sequences or `Result`s, and effects are returned as values.
- The login prompt and login redirect (`src/pages/Riddles.tqhe5.js:8-10`, `src/pages/Trading.x9sra.js:91-94`): session handling of the platform.
- The host time zone. `getMonth()` and `setDate(getDate() - 1)` use the host's local zone. `DateUtils` takes the month index as a parameter. `RiddlesPage` evaluates both on a UTC host. Real British Summer Time rules are not modelled, only the code's whole-month rule.
- Failures of the entry page's "today" and `UserStats` queries. The model takes both as succeeding. A failing "today" query (`src/pages/Riddles.tqhe5.js:16-20`) rejects the `onReady` handler before the play button is touched. A failing `UserStats` query (`src/pages/Riddles.tqhe5.js:29-32`) leaves the gate of lines 23-26 applied and neither counter set.
- The book-title heading and loader shown when the rating lightbox opens (`src/pages/RatingLightbox.a2p9h.js:20-35`) and the cancel button. This is display wiring.
- `TradingPage.LoadListings`: shows every matching listing. The store's `find()` returns one page only, by default at most 50 listings, the newest by `createdAt` (`src/pages/Trading.x9sra.js:191`). Neither that page limit nor the `descending("createdAt")` order is modelled: the model keeps store order, so with more than 50 matches it shows listings the page would not. The search-term clause (`src/pages/Trading.x9sra.js:174-180`) is not modelled either, because its `.or(...)` composition depends on query-builder behaviour that is not available. Calls are modelled one at a time. Each tag click, search keystroke, apply click, slider move and "my listings" change starts a new `loadListings()` without cancelling the one before (`src/pages/Trading.x9sra.js:136`, `144-145`, `151`, `155`), and the call that resolves last sets the repeater. So when a slower, earlier call resolves after a later one, the page shows the earlier filter's rows, and the model does not cover that.
- `markAsTraded` (`src/pages/Trading.x9sra.js:270-286`), the contact button and the repeater's text fields. These are store updates and display wiring.
- CSS and DOM injection (`src/pages/Trading.x9sra.js:11-85`, `src/masterPage.js:5-8`), and the pure UI pages and lightboxes.
- The daily riddle game engine (lives, streak increments, game over). It is not in the modelled files.
- Numbers are JavaScript doubles. The model uses exact integers. The two agree for time values up to 8.64e15 and for whole-number ratings, distances and counters below 2^53.
- `TradingPage.SlideTo`: slider values are taken as whole numbers of miles. For those, `parseInt(maxDistance)` (`src/pages/Trading.x9sra.js:188`) gives the value back. A fractional slider value, which `parseInt` truncates (12.5 becomes 12), is not modelled.
- `Decimal.NatToString`: gives the plain decimal form for every n. JavaScript's `toString` switches to exponent form from 1e21 on, and no streak counter reaches that, so this is not modelled.
- `StringOrder.Less`: compares characters by Unicode code point, while JavaScript and the store compare UTF-16 code units. The two orders differ only for characters above U+FFFF. Date keys are ASCII, so no modelled result depends on it.

=== FILE: calendar.dfy ===
/** The proleptic Gregorian calendar as ECMA-262 defines it for `Date`
    objects (the "Time Values and Time Range" clauses): day numbers
    count days since 1970-01-01, `DayFromYear` is the standard's closed form,
    and `CivilFromDays` splits a day number into year, month and day the way
    `YearFromTime`, `MonthFromTime` and `DateFromTime` do. Months here are
    1-based, as they are printed; the standard's `MonthFromTime` is this
    minus one. */
module Calendar {

  const MsPerDay: int := 86400000

  /** Days from 0001-01-01 to 1970-01-01. */
  const EpochOffset: int := 719162

  datatype Civil = Civil(year: int, month: int, day: int)

  function DaysInYear(y: int): int {
    if y % 4 != 0 then 365
    else if y % 100 != 0 then 366
    else if y % 400 != 0 then 365
    else 366
  }

  predicate InLeapYear(y: int) {
    DaysInYear(y) == 366
  }

  /** Day number of January 1st of year `y`. */
  function DayFromYear(y: int): int {
    365 * (y - 1970) + (y - 1969) / 4 - (y - 1901) / 100 + (y - 1601) / 400
  }

  /** Days in the year before the first day of month `m`; month 13 stands for
      the end of the year. */
  function DaysBeforeMonth(y: int, m: int): int
    requires 1 <= m <= 13
  {
    [0, 31, 59, 90, 120, 151, 181, 212, 243, 273, 304, 334, 365][m - 1]
      + (if m > 2 && InLeapYear(y) then 1 else 0)
  }

  function DaysInMonth(y: int, m: int): (n: int)
    requires 1 <= m <= 12
    ensures 28 <= n <= 31
    ensures n == DaysBeforeMonth(y, m + 1) - DaysBeforeMonth(y, m)
  {
    if m == 2 then (if InLeapYear(y) then 29 else 28)
    else if m == 4 || m == 6 || m == 9 || m == 11 then 30
    else 31
  }

  predicate Valid(c: Civil) {
    1 <= c.month <= 12 && 1 <= c.day <= DaysInMonth(c.year, c.month)
  }

  /** Lexicographic order on (year, month, day): the order of the calendar. */
  predicate Before(a: Civil, b: Civil) {
    a.year < b.year
    || (a.year == b.year && a.month < b.month)
    || (a.year == b.year && a.month == b.month && a.day < b.day)
  }

  /** The standard's `MakeDay` on a valid date: its day number. */
  function DaysFromCivil(c: Civil): int
    requires Valid(c)
  {
    DayFromYear(c.year) + DaysBeforeMonth(c.year, c.month) + c.day - 1
  }

  lemma {:induction false} MulAtLeast(k: int, d: int)
    requires k >= 1 && d > 0
    ensures k * d >= d
    decreases k
  {
    if k > 1 {
      MulAtLeast(k - 1, d);
      assert k * d == (k - 1) * d + d;
    }
  }

  /** Euclidean division with a witness: the quotient and remainder are
      the ones given. */
  lemma DivMod(x: int, d: int, q: int, r: int)
    requires d > 0 && 0 <= r < d && x == q * d + r
    ensures x / d == q && x % d == r
  {
    var q', r' := x / d, x % d;
    assert x == q' * d + r';
    assert (q - q') * d == r' - r;
    if q > q' {
      MulAtLeast(q - q', d);
    } else if q < q' {
      MulAtLeast(q' - q, d);
    }
  }

  /** Years are grouped as in the calendar's own cycles: `era` 400-year
      cycles, `cent` centuries, `q` four-year groups and `yi` single years
      since 0001-01-01. Within these bounds the closed form counts exactly
      the days of those cycles. */
  lemma DayFromYearByCycles(era: int, cent: int, q: int, yi: int)
    requires 0 <= cent <= 3 && 0 <= q <= 24 && 0 <= yi <= 3
    ensures DayFromYear(400 * era + 100 * cent + 4 * q + yi + 1)
            == 146097 * era + 36524 * cent + 1461 * q + 365 * yi - EpochOffset
  {
    var y := 400 * era + 100 * cent + 4 * q + yi + 1;
    DivMod(y - 1969, 4, 100 * era + 25 * cent + q - 492, yi);
    DivMod(y - 1901, 100, 4 * era + cent - 19, 4 * q + yi);
    DivMod(y - 1601, 400, era - 4, 100 * cent + 4 * q + yi);
  }

  /** The cycle position of year `y`, as in `DayFromYearByCycles`. */
  lemma CyclesOfYear(y: int) returns (era: int, cent: int, q: int, yi: int)
    ensures 0 <= cent <= 3 && 0 <= q <= 24 && 0 <= yi <= 3
    ensures y == 400 * era + 100 * cent + 4 * q + yi + 1
  {
    era := (y - 1) / 400;
    var r := (y - 1) % 400;
    cent := r / 100;
    q := (r % 100) / 4;
    yi := r % 4;
    DivMod(r, 4, 25 * cent + q, yi);
  }

  /** January 1st of the next year comes exactly one year's length later. */
  lemma DayFromYearStep(y: int)
    ensures DayFromYear(y + 1) == DayFromYear(y) + DaysInYear(y)
  {
    var era, cent, q, yi := CyclesOfYear(y);
    DayFromYearByCycles(era, cent, q, yi);
    if yi < 3 {
      DayFromYearByCycles(era, cent, q, yi + 1);
      DivMod(y, 4, 100 * era + 25 * cent + q, yi + 1);
    } else if q < 24 {
      DayFromYearByCycles(era, cent, q + 1, 0);
      DivMod(y, 4, 100 * era + 25 * cent + q + 1, 0);
      DivMod(y, 100, 4 * era + cent, 4 * q + 4);
    } else if cent < 3 {
      DayFromYearByCycles(era, cent + 1, 0, 0);
      DivMod(y, 4, 100 * era + 25 * cent + 25, 0);
      DivMod(y, 100, 4 * era + cent + 1, 0);
      DivMod(y, 400, era, 100 * cent + 100);
    } else {
      DayFromYearByCycles(era + 1, 0, 0, 0);
      DivMod(y, 4, 100 * era + 100, 0);
      DivMod(y, 100, 4 * era + 4, 0);
      DivMod(y, 400, era + 1, 0);
    }
  }

  /** Every day of year `y` comes before January 1st of any later year. */
  lemma {:induction false} DayFromYearMonotone(y: int, y': int)
    requires y < y'
    ensures DayFromYear(y) + DaysInYear(y) <= DayFromYear(y')
    decreases y' - y
  {
    DayFromYearStep(y);
    if y' > y + 1 {
      DayFromYearMonotone(y + 1, y');
    }
  }

  /** The month containing day-of-year `doy`, searching from month `m`. */
  function MonthOf(y: int, doy: int, m: int): (r: int)
    requires 1 <= m <= 12 && DaysBeforeMonth(y, m) <= doy < DaysInYear(y)
    ensures m <= r <= 12
    ensures DaysBeforeMonth(y, r) <= doy < DaysBeforeMonth(y, r + 1)
    decreases 12 - m
  {
    if m == 12 || doy < DaysBeforeMonth(y, m + 1) then m else MonthOf(y, doy, m + 1)
  }

  /** The calendar date of day number `n`: the inverse of `DaysFromCivil`. */
  function CivilFromDays(n: int): (c: Civil)
    ensures Valid(c) && DaysFromCivil(c) == n
  {
    var z := n + EpochOffset;
    var era := z / 146097;
    var doe := z % 146097;
    var cent := if doe / 36524 < 3 then doe / 36524 else 3;
    var doc := doe - 36524 * cent;
    var q := doc / 1461;
    var doq := doc % 1461;
    var yi := if doq / 365 < 3 then doq / 365 else 3;
    var doy := doq - 365 * yi;
    var y := 400 * era + 100 * cent + 4 * q + yi + 1;
    DayOfYearInRange(era, doe, cent, doc, q, doq, yi, doy);
    DayFromYearByCycles(era, cent, q, yi);
    var m := MonthOf(y, doy, 1);
    Civil(y, m, doy - DaysBeforeMonth(y, m) + 1)
  }

  /** The cycle split in `CivilFromDays` stays within its bounds and lands
      on a day that exists in the year it computes. */
  lemma DayOfYearInRange(era: int, doe: int, cent: int, doc: int, q: int, doq: int, yi: int, doy: int)
    requires 0 <= doe < 146097
    requires cent == (if doe / 36524 < 3 then doe / 36524 else 3)
    requires doc == doe - 36524 * cent
    requires q == doc / 1461 && doq == doc % 1461
    requires yi == (if doq / 365 < 3 then doq / 365 else 3)
    requires doy == doq - 365 * yi
    ensures 0 <= cent <= 3 && 0 <= q <= 24 && 0 <= yi <= 3
    ensures 0 <= doy < DaysInYear(400 * era + 100 * cent + 4 * q + yi + 1)
  {
    var y := 400 * era + 100 * cent + 4 * q + yi + 1;
    assert 0 <= doc <= 36524;
    assert doc < 36524 || cent == 3;
    if doy == 365 {
      assert yi == 3 && doq == 1460;
      if q < 24 {
        DivMod(y, 4, 100 * era + 25 * cent + q + 1, 0);
        DivMod(y, 100, 4 * era + cent, 4 * q + 4);
      } else {
        assert cent == 3;
        DivMod(y, 4, 100 * era + 100, 0);
        DivMod(y, 100, 4 * era + 4, 0);
        DivMod(y, 400, era + 1, 0);
      }
    }
  }

  /** The computed year is the standard's `YearFromTime`: the last year
      whose January 1st is not after day `n`. */
  lemma YearOfDay(n: int)
    ensures DayFromYear(CivilFromDays(n).year) <= n < DayFromYear(CivilFromDays(n).year + 1)
  {
    var c := CivilFromDays(n);
    var before := DaysBeforeMonth(c.year, c.month);
    assert n == DayFromYear(c.year) + before + c.day - 1;
    assert 0 <= before && c.day <= DaysBeforeMonth(c.year, c.month + 1) - before;
    DaysBeforeMonthMonotone(c.year, c.month + 1, 13);
    assert DaysBeforeMonth(c.year, 13) == DaysInYear(c.year);
    DayFromYearStep(c.year);
  }

  /** Later dates have larger day numbers. */
  lemma DaysFromCivilMonotone(a: Civil, b: Civil)
    requires Valid(a) && Valid(b) && Before(a, b)
    ensures DaysFromCivil(a) < DaysFromCivil(b)
  {
    if a.year < b.year {
      DayFromYearMonotone(a.year, b.year);
      DaysBeforeMonthMonotone(a.year, a.month + 1, 13);
    } else if a.month < b.month {
      DaysBeforeMonthMonotone(a.year, a.month + 1, b.month);
    }
  }

  lemma DaysBeforeMonthMonotone(y: int, m: int, m': int)
    requires 1 <= m <= m' <= 13
    ensures DaysBeforeMonth(y, m) <= DaysBeforeMonth(y, m')
  {
  }

  /** Converting a valid date to its day number and back gives the date. */
  lemma CivilRoundTrip(c: Civil)
    requires Valid(c)
    ensures CivilFromDays(DaysFromCivil(c)) == c
  {
    var c' := CivilFromDays(DaysFromCivil(c));
    if Before(c, c') {
      DaysFromCivilMonotone(c, c');
    } else if Before(c', c) {
      DaysFromCivilMonotone(c', c);
    }
  }

  /** Day numbers and calendar dates are ordered alike. */
  lemma CivilOrder(n: int, m: int)
    ensures Before(CivilFromDays(n), CivilFromDays(m)) <==> n < m
  {
    var a, b := CivilFromDays(n), CivilFromDays(m);
    if Before(a, b) {
      DaysFromCivilMonotone(a, b);
    } else if n < m {
      if Before(b, a) {
        DaysFromCivilMonotone(b, a);
      }
    }
  }

  /** Day numbers of valid time values (at most 10^8 days either side of the
      epoch) fall in years that need at most six digits. */
  lemma YearBound(n: int)
    requires -100000000 <= n <= 100000000
    ensures -1000000 < CivilFromDays(n).year < 1000000
  {
    var z := n + EpochOffset;
    var era := z / 146097;
    assert era * 146097 <= z < (era + 1) * 146097;
    assert -700 < era < 700;
  }
}

=== FILE: date_utils.dfy ===
/** The shared "UK date" helpers: the page code's own daylight-saving rule
    (whole months April to October, by the host's 0-based month index), a
    fixed 60-minute shift, and the `YYYY-MM-DD` key of the shifted instant.
    `hostMonth` stands for `now.getMonth()`, which the host evaluates in its
    own time zone. */
module DateUtils {
  import opened Wrappers
  import opened Calendar
  import opened IsoDate

  const MsPerMinute: int := 60000

  /** The code's daylight-saving test on a 0-based month index. */
  predicate IsDst(hostMonth: int) {
    hostMonth > 2 && hostMonth < 10
  }

  /** `ukOffset`, in minutes. */
  function UkOffsetMinutes(hostMonth: int): int {
    if IsDst(hostMonth) then 60 else 0
  }

  /** The shifted time `now.getTime() + ukOffset * 60 * 1000`. */
  function UkShift(now: int, hostMonth: int): (s: int)
    ensures s == now + 3600000 <==> 3 <= hostMonth <= 9
    ensures s == now <==> !(3 <= hostMonth <= 9)
  {
    now + UkOffsetMinutes(hostMonth) * MsPerMinute
  }

  /** `getUKDate()`: a `Date` at the shifted instant. */
  function UkDate(now: int, hostMonth: int): (d: DateValue)
    requires ValidTime(now)
    ensures d.Some? ==> now <= d.value <= now + 3600000
    ensures !IsDst(hostMonth) ==> d == Some(now)
    ensures IsDst(hostMonth) && ValidTime(now + 3600000) ==> d == Some(now + 3600000)
    ensures d.None? <==> IsDst(hostMonth) && now + 3600000 > MaxTime
  {
    TimeClip(UkShift(now, hostMonth))
  }

  /** `getUKDateAsString()`: the ISO date part of the shifted instant. It
      throws exactly when the shift leaves the time range, and otherwise is
      the key of the day that contains the shifted instant. */
  function UkDateAsString(now: int, hostMonth: int): (r: Result<string, RangeError>)
    ensures r.Failure? <==> !ValidTime(UkShift(now, hostMonth))
    ensures r.Success? ==> r.value == DayKey(Day(UkShift(now, hostMonth)))
  {
    IsoDatePart(TimeClip(UkShift(now, hostMonth)))
  }

  /** For the same `now`, the string is the date part of the instant
      `getUKDate` returns, and it fails exactly when that instant is invalid. */
  lemma UkDateAsStringAgrees(now: int, hostMonth: int)
    requires ValidTime(now)
    ensures UkDate(now, hostMonth).None? ==> UkDateAsString(now, hostMonth).Failure?
    ensures UkDate(now, hostMonth).Some? ==>
      UkDateAsString(now, hostMonth) == Success(DayKey(Day(UkDate(now, hostMonth).value)))
  {
  }

  /** Outside the daylight-saving months the key is the UTC date of `now`. */
  lemma KeyOutsideDst(now: int, hostMonth: int)
    requires ValidTime(now) && !IsDst(hostMonth)
    ensures UkDateAsString(now, hostMonth) == Success(DayKey(Day(now)))
  {
  }

  /** For four-digit years the key is `YYYY-MM-DD` with a real month and day,
      and reading it back gives the day number of the shifted instant. */
  lemma UkKeyRoundTrip(now: int, hostMonth: int)
    requires ValidTime(now) && ValidTime(UkShift(now, hostMonth))
    requires FourDigitYear(Day(UkShift(now, hostMonth)))
    ensures UkDateAsString(now, hostMonth).Success?
    ensures var k := UkDateAsString(now, hostMonth).value;
            && |k| == 10 && KeyShape(k)
            && ParseKey(k).Some? && Valid(ParseKey(k).value)
            && DaysFromCivil(ParseKey(k).value) == UkShift(now, hostMonth) / MsPerDay
  {
    var s := UkShift(now, hostMonth);
    DayKeyRoundTrip(Day(s));
  }

  /** `Date.prototype.getMonth()` on a host whose zone is UTC. */
  function UtcMonthIndex(t: int): (m: int)
    ensures 0 <= m <= 11
  {
    CivilFromDays(Day(t)).month - 1
  }

  /** On a UTC host the rule reads: the UTC calendar month of `now` is April
      through October. */
  lemma DstOnUtcHost(now: int)
    ensures IsDst(UtcMonthIndex(now)) <==> 4 <= CivilFromDays(Day(now)).month <= 10
  {
  }
}

=== FILE: decimal.dfy ===
/** Decimal digit strings: the zero-padded fields of an ISO 8601 date and
    `Number.prototype.toString` for non-negative integers. */
module Decimal {
  import opened StringOrder

  function Pow10(n: nat): (r: nat)
    ensures r >= 1
  {
    if n == 0 then 1 else 10 * Pow10(n - 1)
  }

  predicate IsDigit(c: char) {
    '0' <= c <= '9'
  }

  predicate AllDigits(s: string) {
    forall i :: 0 <= i < |s| ==> IsDigit(s[i])
  }

  function DigitChar(d: nat): (c: char)
    requires d < 10
    ensures IsDigit(c) && c as int == 48 + d
  {
    (48 + d) as char
  }

  function DigitValue(c: char): (d: nat)
    requires IsDigit(c)
    ensures d < 10 && DigitChar(d) == c
  {
    c as int - 48
  }

  /** The numeric value of a digit string, most significant digit first. */
  function ValueOf(s: string): nat
    requires AllDigits(s)
  {
    if |s| == 0 then 0 else 10 * ValueOf(s[..|s| - 1]) + DigitValue(s[|s| - 1])
  }

  /** The lowest `width` decimal digits of `n`, zero-padded on the left. */
  function Pad(n: nat, width: nat): (s: string)
    ensures |s| == width && AllDigits(s)
  {
    if width == 0 then "" else Pad(n / 10, width - 1) + [DigitChar(n % 10)]
  }

  /** A field that fits in its width reads back as the number written. */
  lemma {:induction false} PadRoundTrip(n: nat, width: nat)
    requires n < Pow10(width)
    ensures ValueOf(Pad(n, width)) == n
  {
    if width > 0 {
      var s := Pad(n, width);
      PadRoundTrip(n / 10, width - 1);
      assert s[..|s| - 1] == Pad(n / 10, width - 1);
    }
  }

  lemma PadInjective(n: nat, m: nat, width: nat)
    requires n < Pow10(width) && m < Pow10(width)
    requires Pad(n, width) == Pad(m, width)
    ensures n == m
  {
    PadRoundTrip(n, width);
    PadRoundTrip(m, width);
  }

  /** Zero-padded fields of one width sort as strings exactly as their values
      sort as numbers. */
  lemma {:induction false} PadOrder(n: nat, m: nat, width: nat)
    requires n < Pow10(width) && m < Pow10(width)
    ensures Less(Pad(n, width), Pad(m, width)) <==> n < m
  {
    if width == 0 {
      assert n == 0 && m == 0;
    } else {
      var hn, hm := Pad(n / 10, width - 1), Pad(m / 10, width - 1);
      var dn, dm := [DigitChar(n % 10)], [DigitChar(m % 10)];
      LessConcat(hn, dn, hm, dm);
      PadOrder(n / 10, m / 10, width - 1);
      if hn == hm {
        PadInjective(n / 10, m / 10, width - 1);
      }
      assert Less(dn, dm) <==> n % 10 < m % 10;
    }
  }

  /** `Number.prototype.toString()` of a non-negative integer: shortest
      decimal form, no leading zeros. */
  function NatToString(n: nat): (s: string)
    ensures |s| >= 1 && AllDigits(s)
    ensures s[0] == '0' ==> n == 0 && s == "0"
  {
    if n < 10 then [DigitChar(n)] else NatToString(n / 10) + [DigitChar(n % 10)]
  }

  lemma {:induction false} NatToStringRoundTrip(n: nat)
    ensures ValueOf(NatToString(n)) == n
  {
    if n >= 10 {
      var s := NatToString(n);
      NatToStringRoundTrip(n / 10);
      assert s[..|s| - 1] == NatToString(n / 10);
    }
  }
}

=== FILE: iso_date.dfy ===
/** `Date.prototype.toISOString` and the `YYYY-MM-DD` day keys cut from it.
    The string layout is ECMA-262's Date Time String Format:
    `YYYY-MM-DDTHH:mm:ss.sssZ`, with the year written as `+YYYYYY` or
    `-YYYYYY` (an expanded year) outside 0..9999. */
module IsoDate {
  import opened Wrappers
  import opened Decimal
  import opened StringOrder
  import opened Calendar

  /** The largest magnitude of a valid time value, in milliseconds. */
  const MaxTime: int := 8640000000000000

  /** A `Date` object's time value: `None` is the invalid date (NaN). */
  type DateValue = Option<int>

  datatype RangeError = RangeError

  predicate ValidTime(t: int) {
    -MaxTime <= t <= MaxTime
  }

  /** `TimeClip`: a time value outside the range makes an invalid date. */
  function TimeClip(x: int): (d: DateValue)
    ensures d.Some? <==> ValidTime(x)
    ensures d.Some? ==> d.value == x
  {
    if ValidTime(x) then Some(x) else None
  }

  /** `Day(t)`: the day number containing instant `t`. */
  function Day(t: int): int {
    t / MsPerDay
  }

  /** The year field: four digits for 0..9999, otherwise a sign and six
      digits. */
  function YearString(y: int): string {
    if 0 <= y <= 9999 then Pad(y, 4)
    else (if y < 0 then "-" else "+") + Pad(if y < 0 then -y else y, 6)
  }

  /** The year of a valid time value prints in full: six digits are always
      enough for the expanded form, so no digit is cut off. */
  lemma YearStringExact(t: int)
    requires ValidTime(t)
    ensures var y := CivilFromDays(Day(t)).year; var s := YearString(y);
            && (0 <= y <= 9999 ==> |s| == 4 && ValueOf(s) == y)
            && (!(0 <= y <= 9999) ==> |s| == 7 && s[0] == (if y < 0 then '-' else '+')
                                      && ValueOf(s[1..]) == (if y < 0 then -y else y))
  {
    var n := Day(t);
    assert -100000000 <= n <= 100000000;
    YearBound(n);
    var y := CivilFromDays(n).year;
    if 0 <= y <= 9999 {
      PadRoundTrip(y, 4);
    } else {
      var a := if y < 0 then -y else y;
      PadRoundTrip(a, 6);
      assert YearString(y)[1..] == Pad(a, 6);
    }
  }

  /** The calendar-date part of the ISO string. */
  function DateString(c: Civil): string
    requires Valid(c)
  {
    YearString(c.year) + "-" + Pad(c.month, 2) + "-" + Pad(c.day, 2)
  }

  /** `HH:mm:ss.sssZ` for `ms` milliseconds into a day. */
  function TimeString(ms: int): (s: string)
    requires 0 <= ms < MsPerDay
    ensures |s| == 13 && s[12] == 'Z'
  {
    Pad(ms / 3600000, 2) + ":" + Pad(ms / 60000 % 60, 2) + ":"
      + Pad(ms / 1000 % 60, 2) + "." + Pad(ms % 1000, 3) + "Z"
  }

  /** The key naming the day that contains day number `n`. */
  function DayKey(n: int): string {
    DateString(CivilFromDays(n))
  }

  /** `Date.prototype.toISOString`: throws `RangeError` on an invalid date;
      otherwise the date of the instant, a `T`, and a 13-character time ending
      in `Z`, so the text before the first `T` is the date. */
  function ToIsoString(d: DateValue): (r: Result<string, RangeError>)
    ensures r.Failure? <==> d.None?
    ensures r.Success? ==>
      var k := DayKey(Day(d.value));
      && |r.value| == |k| + 14 && r.value[|r.value| - 1] == 'Z'
      && SplitHead(r.value, 'T') == k
  {
    match d
    case None => Failure(RangeError)
    case Some(t) =>
      var k := DayKey(Day(t));
      var time := TimeString(t % MsPerDay);
      NoTInDateString(CivilFromDays(Day(t)));
      SplitAtFirst(k, time, 'T');
      assert k + "T" + time == k + ['T'] + time;
      Success(k + "T" + time)
  }

  /** `s.split(sep)[0]`: everything before the first `sep`, or all of `s`. */
  function SplitHead(s: string, sep: char): (h: string)
    ensures |h| <= |s| && h == s[..|h|]
    ensures sep !in h
    ensures |h| < |s| ==> s[|h|] == sep
  {
    if |s| == 0 || s[0] == sep then "" else [s[0]] + SplitHead(s[1..], sep)
  }

  /** `toISOString().split('T')[0]`: the date part of an ISO string. */
  function IsoDatePart(d: DateValue): (r: Result<string, RangeError>)
    ensures r.Failure? <==> d.None?
    ensures r.Success? ==> r.value == DayKey(Day(d.value))
  {
    match ToIsoString(d)
    case Failure(e) => Failure(e)
    case Success(s) => Success(SplitHead(s, 'T'))
  }

  /** The fixed-width key shape for years 0..9999: `DDDD-DD-DD`. */
  predicate KeyShape(s: string) {
    && |s| == 10
    && AllDigits(s[..4]) && s[4] == '-'
    && AllDigits(s[5..7]) && s[7] == '-'
    && AllDigits(s[8..])
  }

  /** Reads a `YYYY-MM-DD` key back into a calendar date, if it names one. */
  function ParseKey(s: string): Option<Civil> {
    if !KeyShape(s) then None
    else
      var c := Civil(ValueOf(s[..4]), ValueOf(s[5..7]), ValueOf(s[8..]));
      if Valid(c) then Some(c) else None
  }

  /** Day numbers whose year prints with four digits. */
  predicate FourDigitYear(n: int) {
    0 <= CivilFromDays(n).year <= 9999
  }

  /** A four-digit-year date string parts into its three fields. */
  lemma DateStringParts(c: Civil)
    requires Valid(c) && 0 <= c.year <= 9999
    ensures DateString(c)[..4] == Pad(c.year, 4)
    ensures DateString(c)[5..7] == Pad(c.month, 2)
    ensures DateString(c)[8..] == Pad(c.day, 2)
    ensures KeyShape(DateString(c))
  {
    var s := DateString(c);
    assert s == Pad(c.year, 4) + "-" + Pad(c.month, 2) + "-" + Pad(c.day, 2);
    assert s[..4] == Pad(c.year, 4);
    assert s[5..7] == Pad(c.month, 2);
    assert s[8..] == Pad(c.day, 2);
  }

  /** The key of a day with a four-digit year is `YYYY-MM-DD`, ten characters,
      and reads back as its date, whose day number is the day itself. */
  lemma DayKeyRoundTrip(n: int)
    requires FourDigitYear(n)
    ensures |DayKey(n)| == 10 && KeyShape(DayKey(n))
    ensures ParseKey(DayKey(n)) == Some(CivilFromDays(n))
    ensures DaysFromCivil(ParseKey(DayKey(n)).value) == n
  {
    var c := CivilFromDays(n);
    DateStringParts(c);
    PadRoundTrip(c.year, 4);
    PadRoundTrip(c.month, 2);
    PadRoundTrip(c.day, 2);
  }

  /** Three fields joined by dashes compare field by field. */
  lemma DashedLess(y: string, m: string, d: string, y': string, m': string, d': string)
    requires |y| == |y'| && |m| == |m'|
    ensures Less(y + "-" + m + "-" + d, y' + "-" + m' + "-" + d')
            <==> Less(y, y') || (y == y' && (Less(m, m') || (m == m' && Less(d, d'))))
  {
    assert y + "-" + m + "-" + d == y + ("-" + (m + ("-" + d)));
    assert y' + "-" + m' + "-" + d' == y' + ("-" + (m' + ("-" + d')));
    LessConcat(y, "-" + (m + ("-" + d)), y', "-" + (m' + ("-" + d')));
    LessConcat("-", m + ("-" + d), "-", m' + ("-" + d'));
    LessIrreflexive("-");
    LessConcat(m, "-" + d, m', "-" + d');
    LessConcat("-", d, "-", d');
  }

  /** Four-digit-year date strings sort as their dates do. */
  lemma DateStringOrder(a: Civil, b: Civil)
    requires Valid(a) && Valid(b) && 0 <= a.year <= 9999 && 0 <= b.year <= 9999
    ensures Less(DateString(a), DateString(b)) <==> Before(a, b)
  {
    DashedLess(Pad(a.year, 4), Pad(a.month, 2), Pad(a.day, 2),
               Pad(b.year, 4), Pad(b.month, 2), Pad(b.day, 2));
    PadOrder(a.year, b.year, 4);
    PadOrder(a.month, b.month, 2);
    PadOrder(a.day, b.day, 2);
    if Pad(a.year, 4) == Pad(b.year, 4) { PadInjective(a.year, b.year, 4); }
    if Pad(a.month, 2) == Pad(b.month, 2) { PadInjective(a.month, b.month, 2); }
  }

  /** Comparing keys as strings compares their days: the lexicographic
      order of four-digit-year keys is chronological order. */
  lemma DayKeyOrder(n: int, m: int)
    requires FourDigitYear(n) && FourDigitYear(m)
    ensures Less(DayKey(n), DayKey(m)) <==> n < m
    ensures DayKey(n) == DayKey(m) <==> n == m
  {
    DateStringOrder(CivilFromDays(n), CivilFromDays(m));
    CivilOrder(n, m);
    if DayKey(n) == DayKey(m) {
      DayKeyRoundTrip(n);
      DayKeyRoundTrip(m);
    }
  }

  /** Date strings contain no `T`: their characters are digits, signs
      and dashes. */
  lemma NoTInDateString(c: Civil)
    requires Valid(c)
    ensures 'T' !in DateString(c)
  {
    var s := DateString(c);
    forall i | 0 <= i < |s|
      ensures s[i] != 'T'
    {
      assert IsDigit(s[i]) || s[i] == '-' || s[i] == '+';
    }
  }

  lemma {:induction false} SplitAtFirst(a: string, b: string, sep: char)
    requires sep !in a
    ensures SplitHead(a + [sep] + b, sep) == a
  {
    if |a| > 0 {
      assert (a + [sep] + b)[1..] == a[1..] + [sep] + b;
      SplitAtFirst(a[1..], b, sep);
    }
  }
}

=== FILE: js_text.dfy ===
/** The JavaScript string operations the pages rely on: the white-space set
    of `String.prototype.trim` and `parseInt`, `trim` itself, and `parseInt`
    with no radix (decimal, or hexadecimal after `0x`/`0X`). */
module JsText {
  import opened Wrappers
  import opened Decimal

  /** ECMA-262's WhiteSpace and LineTerminator code points. */
  predicate IsJsSpace(c: char) {
    var n := c as int;
    || n == 0x09 || n == 0x0B || n == 0x0C || n == 0x20 || n == 0xA0 || n == 0xFEFF
    || n == 0x1680 || (0x2000 <= n <= 0x200A) || n == 0x202F || n == 0x205F || n == 0x3000
    || n == 0x0A || n == 0x0D || n == 0x2028 || n == 0x2029
  }

  predicate AllSpace(s: string) {
    forall i :: 0 <= i < |s| ==> IsJsSpace(s[i])
  }

  /** How many white-space characters `s` starts with. */
  function LeadingSpace(s: string): (n: nat)
    ensures n <= |s|
    ensures forall k :: 0 <= k < n ==> IsJsSpace(s[k])
    ensures n < |s| ==> !IsJsSpace(s[n])
  {
    if |s| > 0 && IsJsSpace(s[0]) then
      var n := 1 + LeadingSpace(s[1..]);
      assert forall k :: 1 <= k < n ==> s[k] == s[1..][k - 1];
      n
    else 0
  }

  /** How many white-space characters `s` ends with. */
  function TrailingSpace(s: string): (n: nat)
    ensures n <= |s|
    ensures forall k :: |s| - n <= k < |s| ==> IsJsSpace(s[k])
    ensures n < |s| ==> !IsJsSpace(s[|s| - 1 - n])
  {
    if |s| > 0 && IsJsSpace(s[|s| - 1]) then
      var n := 1 + TrailingSpace(s[..|s| - 1]);
      assert forall k :: |s| - n <= k < |s| - 1 ==> s[k] == s[..|s| - 1][k];
      n
    else 0
  }

  /** `s` without its leading white space. */
  function TrimStart(s: string): string {
    s[LeadingSpace(s)..]
  }

  /** `String.prototype.trim`: the result is the slice of `s` between its
      leading and its trailing white space, and it neither starts nor ends
      with white space. */
  function Trim(s: string): (r: string)
    ensures LeadingSpace(s) + |r| <= |s|
    ensures r == s[LeadingSpace(s)..LeadingSpace(s) + |r|]
    ensures forall k :: 0 <= k < LeadingSpace(s) ==> IsJsSpace(s[k])
    ensures forall k :: LeadingSpace(s) + |r| <= k < |s| ==> IsJsSpace(s[k])
    ensures |r| > 0 ==> !IsJsSpace(r[0]) && !IsJsSpace(r[|r| - 1])
  {
    var i := LeadingSpace(s);
    if i == |s| then ""
    else
      var t := TrailingSpace(s);
      assert IsJsSpace(s[i]) ==> t < |s| - i;
      s[i..|s| - t]
  }

  /** `s.trim() === ""` exactly when every character of `s` is white space. */
  lemma TrimEmptyIffAllSpace(s: string)
    ensures Trim(s) == "" <==> AllSpace(s)
  {
    if Trim(s) != "" {
      assert s[LeadingSpace(s)] == Trim(s)[0];
    }
  }

  /** The longest prefix of decimal digits. */
  function DigitPrefix(s: string): (p: string)
    ensures AllDigits(p) && |p| <= |s| && p == s[..|p|]
    ensures |p| < |s| ==> !IsDigit(s[|p|])
  {
    if |s| > 0 && IsDigit(s[0]) then [s[0]] + DigitPrefix(s[1..]) else ""
  }

  predicate IsHexDigit(c: char) {
    IsDigit(c) || 'a' <= c <= 'f' || 'A' <= c <= 'F'
  }

  predicate AllHexDigits(s: string) {
    forall i :: 0 <= i < |s| ==> IsHexDigit(s[i])
  }

  function HexDigitValue(c: char): (d: nat)
    requires IsHexDigit(c)
    ensures d < 16
    ensures IsDigit(c) ==> d == DigitValue(c)
  {
    if IsDigit(c) then DigitValue(c)
    else if 'a' <= c <= 'f' then c as int - 'a' as int + 10
    else c as int - 'A' as int + 10
  }

  /** The numeric value of a hexadecimal digit string. */
  function HexValueOf(s: string): nat
    requires AllHexDigits(s)
  {
    if |s| == 0 then 0 else 16 * HexValueOf(s[..|s| - 1]) + HexDigitValue(s[|s| - 1])
  }

  /** The longest prefix of hexadecimal digits. */
  function HexDigitPrefix(s: string): (p: string)
    ensures AllHexDigits(p) && |p| <= |s| && p == s[..|p|]
    ensures |p| < |s| ==> !IsHexDigit(s[|p|])
  {
    if |s| > 0 && IsHexDigit(s[0]) then [s[0]] + HexDigitPrefix(s[1..]) else ""
  }

  /** What follows the leading white space and one optional sign. */
  function AfterSign(s: string): string {
    var t := TrimStart(s);
    if |t| > 0 && (t[0] == '-' || t[0] == '+') then t[1..] else t
  }

  /** The first character after the leading white space is `-`. */
  predicate MinusSign(s: string) {
    var t := TrimStart(s);
    |t| > 0 && t[0] == '-'
  }

  /** Starts with `0x` or `0X`, which makes `parseInt` with no radix read
      hexadecimal. */
  predicate HexPrefixed(a: string) {
    |a| >= 2 && a[0] == '0' && (a[1] == 'x' || a[1] == 'X')
  }

  /** `parseInt(s)` with no radix. After the white space and one optional
      sign, a `0x`/`0X` prefix selects hexadecimal and is skipped; otherwise
      the radix is 10. The result is NaN (`None`) exactly when no digit of
      that radix comes next; otherwise it is the value of the longest run of
      such digits, negated after a `-`. */
  function ParseInt(s: string): (r: Option<int>)
    ensures HexPrefixed(AfterSign(s)) ==>
      (r.None? <==> |AfterSign(s)| == 2 || !IsHexDigit(AfterSign(s)[2]))
    ensures HexPrefixed(AfterSign(s)) && r.Some? ==>
      (if MinusSign(s) then -r.value else r.value) == HexValueOf(HexDigitPrefix(AfterSign(s)[2..]))
    ensures !HexPrefixed(AfterSign(s)) ==>
      (r.None? <==> |AfterSign(s)| == 0 || !IsDigit(AfterSign(s)[0]))
    ensures !HexPrefixed(AfterSign(s)) && r.Some? ==>
      (if MinusSign(s) then -r.value else r.value) == ValueOf(DigitPrefix(AfterSign(s)))
  {
    var a := AfterSign(s);
    var magnitude: Option<nat> :=
      if HexPrefixed(a) then
        var h := HexDigitPrefix(a[2..]);
        if |h| == 0 then None else Some(HexValueOf(h))
      else
        var d := DigitPrefix(a);
        if |d| == 0 then None else Some(ValueOf(d));
    match magnitude
    case None => None
    case Some(m) =>
      var v: int := m;
      Some(if MinusSign(s) then -v else v)
  }

  lemma {:induction false} DigitPrefixOfDigits(d: string, rest: string)
    requires AllDigits(d) && (|rest| > 0 ==> !IsDigit(rest[0]))
    ensures DigitPrefix(d + rest) == d
  {
    if |d| > 0 {
      assert (d + rest)[1..] == d[1..] + rest;
      DigitPrefixOfDigits(d[1..], rest);
    }
  }

  lemma {:induction false} HexDigitPrefixOfDigits(h: string, rest: string)
    requires AllHexDigits(h) && (|rest| > 0 ==> !IsHexDigit(rest[0]))
    ensures HexDigitPrefix(h + rest) == h
  {
    if |h| > 0 {
      assert (h + rest)[1..] == h[1..] + rest;
      HexDigitPrefixOfDigits(h[1..], rest);
    }
  }

  lemma {:induction false} LeadingSpaceOfSpace(w: string, rest: string)
    requires AllSpace(w) && (|rest| > 0 ==> !IsJsSpace(rest[0]))
    ensures LeadingSpace(w + rest) == |w|
  {
    if |w| > 0 {
      assert (w + rest)[1..] == w[1..] + rest;
      LeadingSpaceOfSpace(w[1..], rest);
    }
  }

  lemma TrimStartOfSpace(w: string, rest: string)
    requires AllSpace(w) && (|rest| > 0 ==> !IsJsSpace(rest[0]))
    ensures TrimStart(w + rest) == rest
  {
    LeadingSpaceOfSpace(w, rest);
    assert (w + rest)[|w|..] == rest;
  }

  lemma ConcatAssoc(a: string, b: string, c: string, d: string)
    ensures a + b + c + d == a + (b + (c + d))
  {
  }

  lemma DigitNotSpace(c: char)
    requires IsDigit(c)
    ensures !IsJsSpace(c)
  {
  }

  /** `parseInt` reads back what `Number.prototype.toString` writes for a
      non-negative integer, after any leading white space and before any
      text that does not start with a digit. The text after a lone "0" must
      not start with `x` or `X`: that would make a hexadecimal prefix. */
  lemma ParseIntOfNatToString(w: string, n: nat, rest: string)
    requires AllSpace(w) && (|rest| > 0 ==> !IsDigit(rest[0]))
    requires n == 0 && |rest| > 0 ==> rest[0] != 'x' && rest[0] != 'X'
    ensures ParseInt(w + NatToString(n) + rest) == Some(n)
  {
    var d := NatToString(n);
    assert w + d + rest == w + (d + rest);
    assert (d + rest)[0] == d[0];
    DigitNotSpace(d[0]);
    TrimStartOfSpace(w, d + rest);
    var t := TrimStart(w + d + rest);
    assert t == d + rest;
    assert t[0] != '-' && t[0] != '+';
    assert !HexPrefixed(t);
    DigitPrefixOfDigits(d, rest);
    assert DigitPrefix(t) == d;
    NatToStringRoundTrip(n);
  }

  /** `parseInt` reads a `0x`/`0X`-prefixed run of hexadecimal digits, after
      any leading white space and before any text that does not start with a
      hexadecimal digit, as its hexadecimal value. */
  lemma {:induction false} ParseIntOfHex(w: string, x: char, h: string, rest: string)
    requires AllSpace(w) && (x == 'x' || x == 'X')
    requires |h| > 0 && AllHexDigits(h) && (|rest| > 0 ==> !IsHexDigit(rest[0]))
    ensures ParseInt(w + ['0', x] + h + rest) == Some(HexValueOf(h))
  {
    var t := ['0', x] + (h + rest);
    ConcatAssoc(w, ['0', x], h, rest);
    AfterSignOfUnsigned(w, t);
    assert HexPrefixed(t) && t[2..] == h + rest;
    HexDigitPrefixOfDigits(h, rest);
    assert t[2] == h[0] && IsHexDigit(t[2]);
  }

  /** Leading white space followed by a digit: no sign is read. */
  lemma AfterSignOfUnsigned(w: string, t: string)
    requires AllSpace(w) && |t| > 0 && IsDigit(t[0])
    ensures AfterSign(w + t) == t && !MinusSign(w + t)
  {
    DigitNotSpace(t[0]);
    TrimStartOfSpace(w, t);
  }
}

=== FILE: rating_lightbox.dfy ===
/** The trader-rating lightbox: the context guard run when it opens, the
    validation of the entered rating, and the rating row it inserts. The
    store's `get` and `insert` are modelled by their outcomes, passed in. */
module RatingLightbox {
  import opened Wrappers
  import opened Decimal
  import opened JsText

  /** The context the lightbox is opened with. */
  datatype Context = Context(bookId: Option<string>)

  /** The `books` row being rated. */
  datatype Book = Book(title: string, ownerUserId: string)

  /** A `trader ratings` row. */
  datatype RatingRecord = RatingRecord(
    fromUserId: string,
    toUserId: string,
    rating: int,
    comment: string,
    timestamp: int,
    tradeId: string,
    bookTitle: string)

  const InvalidRatingText: string := "Please select a valid rating (1-5)"
  const SubmitErrorPrefix: string := "Error submitting rating: "
  const SuccessMessage: string := "Rating submitted successfully!"

  /** What `onReady` does with the context. */
  datatype ReadyAction = CloseLightbox | InstallHandlers(bookId: string)

  /** `!context || !context.bookId` closes the lightbox before any handler is
      installed; an empty id is falsy too. */
  function OnReady(ctx: Option<Context>): (a: ReadyAction)
    ensures a.InstallHandlers? <==> ctx.Some? && ctx.value.bookId.Some? && ctx.value.bookId.value != ""
    ensures a.InstallHandlers? ==> a.bookId == ctx.value.bookId.value
  {
    match ctx
    case None => CloseLightbox
    case Some(c) =>
      match c.bookId
      case None => CloseLightbox
      case Some(id) => if id == "" then CloseLightbox else InstallHandlers(id)
  }

  /** The validation `!rating || rating < 1 || rating > 5`: NaN and 0 are
      falsy and rejected before the range test. */
  function AcceptRating(parsed: Option<int>): (r: Option<int>)
    ensures r.Some? <==> parsed.Some? && 1 <= parsed.value <= 5
    ensures r.Some? ==> r == parsed
  {
    match parsed
    case None => None
    case Some(v) => if v == 0 || v < 1 || v > 5 then None else Some(v)
  }

  /** A rating typed as a decimal number, possibly with leading white space
      and trailing text, is accepted exactly when it is 1 to 5. (A lone "0"
      followed by `x` or `X` is a hexadecimal prefix instead; see below.) */
  lemma DecimalRatingAccepted(w: string, n: nat, rest: string)
    requires AllSpace(w) && (|rest| > 0 ==> !IsDigit(rest[0]))
    requires n == 0 && |rest| > 0 ==> rest[0] != 'x' && rest[0] != 'X'
    ensures AcceptRating(ParseInt(w + NatToString(n) + rest)) == (if 1 <= n <= 5 then Some(n) else None)
  {
    ParseIntOfNatToString(w, n, rest);
  }

  /** A rating typed in hexadecimal after `0x` or `0X` ("0x3") is read as
      its hexadecimal value and accepted exactly when that is 1 to 5. */
  lemma {:induction false} HexRatingAccepted(w: string, x: char, h: string, rest: string)
    requires AllSpace(w) && (x == 'x' || x == 'X')
    requires |h| > 0 && AllHexDigits(h) && (|rest| > 0 ==> !IsHexDigit(rest[0]))
    ensures var v := HexValueOf(h);
            AcceptRating(ParseInt(w + ['0', x] + h + rest)) == (if 1 <= v <= 5 then Some(v) else None)
  {
    ParseIntOfHex(w, x, h, rest);
  }

  /** Input with no digits after the white space and sign parses to NaN and
      is rejected. */
  lemma NoDigitsRejected(s: string)
    requires |AfterSign(s)| == 0 || !IsDigit(AfterSign(s)[0])
    ensures ParseInt(s).None? && AcceptRating(ParseInt(s)).None?
  {
  }

  /** What `submitRating` ends in. */
  datatype SubmitOutcome =
    | Rejected(errorText: string)
    | LoadFailed(errorText: string)
    | InsertFailed(record: RatingRecord, errorText: string)
    | Submitted(record: RatingRecord, successMessage: string)
  {
    /** The row handed to `insert`, if the handler got that far. */
    function Inserted(): Option<RatingRecord> {
      match this
      case InsertFailed(r, _) => Some(r)
      case Submitted(r, _) => Some(r)
      case _ => None
    }
  }

  /** `submitRating()` for the lightbox opened on `bookId`: `book` is what
      `get("books", bookId)` yields (or the message it throws), `insertError`
      the message `insert` throws, if any. `Submitted` stands for closing the
      lightbox and opening the success lightbox with its message. */
  function SubmitRating(bookId: string, ratingInput: string, comment: string, user: string, now: int,
                        book: Result<Book, string>, insertError: Option<string>): (o: SubmitOutcome)
    ensures o.Rejected? <==> AcceptRating(ParseInt(ratingInput)).None?
    ensures o.Rejected? ==> o.errorText == InvalidRatingText
    ensures o.Inserted().Some? <==> AcceptRating(ParseInt(ratingInput)).Some? && book.Success?
    ensures o.Inserted().Some? ==>
      var r := o.Inserted().value;
      && r.fromUserId == user
      && r.toUserId == book.value.ownerUserId
      && Some(r.rating) == ParseInt(ratingInput) && 1 <= r.rating <= 5
      && r.comment == comment
      && r.timestamp == now
      && r.tradeId == bookId
      && r.bookTitle == book.value.title
    ensures o.Submitted? <==> o.Inserted().Some? && insertError.None?
    ensures o.Submitted? ==> o.successMessage == SuccessMessage
    ensures o.LoadFailed? ==> o.errorText == SubmitErrorPrefix + book.error
    ensures o.InsertFailed? ==> o.errorText == SubmitErrorPrefix + insertError.value
  {
    match AcceptRating(ParseInt(ratingInput))
    case None => Rejected(InvalidRatingText)
    case Some(rating) =>
      match book
      case Failure(msg) => LoadFailed(SubmitErrorPrefix + msg)
      case Success(b) =>
        var record := RatingRecord(user, b.ownerUserId, rating, comment, now, bookId, b.title);
        match insertError
        case Some(msg) => InsertFailed(record, SubmitErrorPrefix + msg)
        case None => Submitted(record, SuccessMessage)
  }
}

=== FILE: riddles_page.dfy ===
/** The riddles entry page: today's and yesterday's UK day keys, the
    "already completed today" gate, the max-streak text and the current
    streak lookup. Store queries are modelled as the whole collection they
    read; `getMonth()` and `setDate()` are taken on a host whose zone is UTC. */
module RiddlesPage {
  import opened Wrappers
  import opened Decimal
  import opened StringOrder
  import opened Calendar
  import opened IsoDate
  import DateUtils

  /** A `DailyStats` row: one user's record for one UK day. */
  datatype DailyStats = DailyStats(userId: string, date: string, riddlesSolved: seq<string>, currentStreak: nat)

  /** A `UserStats` row. */
  datatype UserStats = UserStats(userId: string, maxStreak: nat)

  /** The number of riddles that completes a day. */
  const RiddlesPerDay: int := 3

  const CompletedLabel: string := "Already Completed Today"

  /** `formatUKDate(date)`: an invalid date has month NaN, so no shift, and
      `toISOString` throws. */
  function FormatUkDate(date: DateValue): (r: Result<string, RangeError>)
    ensures r.Failure? <==> date.None? || !ValidTime(DateUtils.UkShift(date.value, DateUtils.UtcMonthIndex(date.value)))
    ensures r.Success? ==> r.value == DayKey(Day(DateUtils.UkShift(date.value, DateUtils.UtcMonthIndex(date.value))))
  {
    match date
    case None => Failure(RangeError)
    case Some(t) => DateUtils.UkDateAsString(t, DateUtils.UtcMonthIndex(t))
  }

  /** `getUKDateString()`, evaluated at `now`: the key of the shifted
      instant, throwing when the shift leaves the time range. */
  function TodayKey(now: int): (r: Result<string, RangeError>)
    ensures r.Failure? <==> !ValidTime(DateUtils.UkShift(now, DateUtils.UtcMonthIndex(now)))
    ensures r.Success? ==> r.value == DayKey(Day(DateUtils.UkShift(now, DateUtils.UtcMonthIndex(now))))
  {
    DateUtils.UkDateAsString(now, DateUtils.UtcMonthIndex(now))
  }

  /** The page's two key computations agree with each other and with the
      shared helper, and produce the day key of the shifted instant. */
  lemma TodayKeyAgrees(now: int)
    requires ValidTime(now)
    ensures TodayKey(now) == FormatUkDate(Some(now))
    ensures var s := DateUtils.UkShift(now, DateUtils.UtcMonthIndex(now));
            ValidTime(s) ==> TodayKey(now) == Success(DayKey(Day(s)))
    ensures !ValidTime(DateUtils.UkShift(now, DateUtils.UtcMonthIndex(now))) ==> TodayKey(now).Failure?
  {
  }

  /** `yesterday.setDate(yesterday.getDate() - 1)` on a UTC host: one day
      earlier, or an invalid date past the time range. */
  function Yesterday(now: int): (d: DateValue)
    ensures d.Some? <==> ValidTime(now - MsPerDay)
    ensures d.Some? ==> d.value + MsPerDay == now && Day(d.value) == Day(now) - 1
  {
    TimeClip(now - MsPerDay)
  }

  /** The query `eq("userId", user).le("date", key)` keeps this row. */
  predicate OnOrBefore(r: DailyStats, user: string, key: string) {
    r.userId == user && LessEq(r.date, key)
  }

  /** `.descending("date").find()` then `items[0]`: a kept row with the
      greatest date key, or `None` when no row is kept. */
  function LatestOnOrBefore(rows: seq<DailyStats>, user: string, key: string): (r: Option<DailyStats>)
    ensures r.None? <==> forall i :: 0 <= i < |rows| ==> !OnOrBefore(rows[i], user, key)
    ensures r.Some? ==> r.value in rows && OnOrBefore(r.value, user, key)
    ensures r.Some? ==> forall i :: 0 <= i < |rows| && OnOrBefore(rows[i], user, key)
                                    ==> LessEq(rows[i].date, r.value.date)
  {
    if |rows| == 0 then None
    else
      var rest := LatestOnOrBefore(rows[1..], user, key);
      assert forall i :: 1 <= i < |rows| ==> rows[i] == rows[1..][i - 1];
      if !OnOrBefore(rows[0], user, key) then rest
      else match rest
        case None => Some(rows[0])
        case Some(b) =>
          if Less(rows[0].date, b.date) then rest
          else
            LessTotal(rows[0].date, b.date);
            LaterRowWins(rows, user, key, b);
            Some(rows[0])
  }

  /** When the first row's date is not below the best of the rest, it is
      at least every kept row's date. */
  lemma LaterRowWins(rows: seq<DailyStats>, user: string, key: string, b: DailyStats)
    requires |rows| > 0 && LessEq(b.date, rows[0].date)
    requires forall i :: 1 <= i < |rows| && OnOrBefore(rows[i], user, key) ==> LessEq(rows[i].date, b.date)
    ensures forall i :: 0 <= i < |rows| && OnOrBefore(rows[i], user, key) ==> LessEq(rows[i].date, rows[0].date)
  {
    forall i | 1 <= i < |rows| && OnOrBefore(rows[i], user, key)
      ensures LessEq(rows[i].date, rows[0].date)
    {
      LessEqTransitive(rows[i].date, b.date, rows[0].date);
    }
  }

  /** Row `i` is kept by the query and no kept row has a greater date key:
      a row `.descending("date")` may put first. */
  predicate LatestKept(rows: seq<DailyStats>, user: string, key: string, i: int) {
    && 0 <= i < |rows| && OnOrBefore(rows[i], user, key)
    && forall j :: 0 <= j < |rows| && OnOrBefore(rows[j], user, key) ==> LessEq(rows[j].date, rows[i].date)
  }

  /** The row `LatestOnOrBefore` picks sits at a `LatestKept` position. */
  lemma LatestOnOrBeforeIndex(rows: seq<DailyStats>, user: string, key: string)
    requires LatestOnOrBefore(rows, user, key).Some?
    ensures exists i :: LatestKept(rows, user, key, i) && rows[i] == LatestOnOrBefore(rows, user, key).value
  {
    var r := LatestOnOrBefore(rows, user, key).value;
    var i :| 0 <= i < |rows| && rows[i] == r;
    assert LatestKept(rows, user, key, i);
  }

  /** `getCurrentStreak()`: the streak of the user's latest row dated on or
      before yesterday's key; 0 when there is none, and 0 when computing
      the key or running the query fails (`streakRows` is `Failure`). */
  function CurrentStreak(now: int, user: string, streakRows: Result<seq<DailyStats>, string>): (n: nat)
    ensures (FormatUkDate(Yesterday(now)).Failure? || streakRows.Failure?) ==> n == 0
    ensures FormatUkDate(Yesterday(now)).Success? && streakRows.Success?
            && (forall i :: 0 <= i < |streakRows.value|
                  ==> !OnOrBefore(streakRows.value[i], user, FormatUkDate(Yesterday(now)).value))
            ==> n == 0
    ensures FormatUkDate(Yesterday(now)).Success? && streakRows.Success?
            && (exists j :: 0 <= j < |streakRows.value|
                  && OnOrBefore(streakRows.value[j], user, FormatUkDate(Yesterday(now)).value))
            ==> exists i :: LatestKept(streakRows.value, user, FormatUkDate(Yesterday(now)).value, i)
                            && streakRows.value[i].currentStreak == n
  {
    match FormatUkDate(Yesterday(now))
    case Failure(_) => 0
    case Success(key) =>
      match streakRows
      case Failure(_) => 0
      case Success(rows) =>
        match LatestOnOrBefore(rows, user, key)
        case None => 0
        case Some(r) =>
          LatestOnOrBeforeIndex(rows, user, key);
          r.currentStreak
  }

  /** The streak shown is the one of the user's latest row on or before
      yesterday's key: every other kept row is dated no later. */
  lemma CurrentStreakIsLatest(now: int, user: string, rows: seq<DailyStats>, i: int)
    requires FormatUkDate(Yesterday(now)).Success?
    requires 0 <= i < |rows| && OnOrBefore(rows[i], user, FormatUkDate(Yesterday(now)).value)
    requires forall j :: 0 <= j < |rows| && j != i && OnOrBefore(rows[j], user, FormatUkDate(Yesterday(now)).value)
                         ==> Less(rows[j].date, rows[i].date)
    ensures CurrentStreak(now, user, Success(rows)) == rows[i].currentStreak
  {
    var key := FormatUkDate(Yesterday(now)).value;
    var r := LatestOnOrBefore(rows, user, key);
    var k :| 0 <= k < |rows| && rows[k] == r.value;
    if k != i {
      assert Less(rows[k].date, rows[i].date);
      assert LessEq(rows[i].date, rows[k].date);
      if rows[i].date == rows[k].date {
        LessIrreflexive(rows[k].date);
      } else {
        LessAsymmetric(rows[k].date, rows[i].date);
      }
    }
  }

  /** The string order the lookup uses is the calendar order: when every
      row's date is the key of a day with a four-digit year (`days[i]`), the
      selected row has the latest day on or before yesterday's. */
  lemma LatestIsChronological(rows: seq<DailyStats>, days: seq<int>, user: string, yesterday: int)
    requires |days| == |rows| && FourDigitYear(yesterday)
    requires forall i :: 0 <= i < |rows| ==> FourDigitYear(days[i]) && rows[i].date == DayKey(days[i])
    ensures forall i :: 0 <= i < |rows| ==> (OnOrBefore(rows[i], user, DayKey(yesterday))
                                       <==> rows[i].userId == user && days[i] <= yesterday)
    ensures var r := LatestOnOrBefore(rows, user, DayKey(yesterday));
            r.Some? ==> exists k :: 0 <= k < |rows| && rows[k] == r.value && days[k] <= yesterday
                          && forall i :: 0 <= i < |rows| && rows[i].userId == user && days[i] <= yesterday
                                         ==> days[i] <= days[k]
  {
    var key := DayKey(yesterday);
    forall i | 0 <= i < |rows|
      ensures OnOrBefore(rows[i], user, key) <==> rows[i].userId == user && days[i] <= yesterday
    {
      DayKeyOrder(days[i], yesterday);
    }
    var r := LatestOnOrBefore(rows, user, key);
    if r.Some? {
      var k :| 0 <= k < |rows| && rows[k] == r.value;
      forall i | 0 <= i < |rows| && rows[i].userId == user && days[i] <= yesterday
        ensures days[i] <= days[k]
      {
        DayKeyOrder(days[i], days[k]);
      }
    }
  }

  /** The row `eq("userId", user).eq("date", today)` matches. */
  predicate IsToday(r: DailyStats, user: string, today: string) {
    r.userId == user && r.date == today
  }

  /** The position of the first matching row, or `|rows|` when none does. */
  function FirstTodayIndex(rows: seq<DailyStats>, user: string, today: string): (k: nat)
    ensures k <= |rows|
    ensures k < |rows| ==> IsToday(rows[k], user, today)
    ensures forall j :: 0 <= j < k ==> !IsToday(rows[j], user, today)
  {
    if |rows| == 0 || IsToday(rows[0], user, today) then 0
    else
      assert forall j :: 1 <= j < |rows| ==> rows[j] == rows[1..][j - 1];
      1 + FirstTodayIndex(rows[1..], user, today)
  }

  /** `items[0]` of that query: the first matching row. */
  function TodayRow(rows: seq<DailyStats>, user: string, today: string): (r: Option<DailyStats>)
    ensures r.None? <==> forall i :: 0 <= i < |rows| ==> !IsToday(rows[i], user, today)
    ensures r.Some? ==> r.value == rows[FirstTodayIndex(rows, user, today)]
  {
    var k := FirstTodayIndex(rows, user, today);
    if k < |rows| then Some(rows[k]) else None
  }

  /** The index of the first `UserStats` row of `user`, or `|rows|` when
      there is none. */
  function FirstUserIndex(rows: seq<UserStats>, user: string): (k: nat)
    ensures k <= |rows|
    ensures k < |rows| ==> rows[k].userId == user
    ensures forall j :: 0 <= j < k ==> rows[j].userId != user
  {
    if |rows| == 0 || rows[0].userId == user then 0
    else
      assert forall j :: 1 <= j < |rows| ==> rows[j] == rows[1..][j - 1];
      1 + FirstUserIndex(rows[1..], user)
  }

  /** `items[0]` of `eq("userId", user)` on `UserStats`: the user's first
      row. */
  function UserRow(rows: seq<UserStats>, user: string): (r: Option<UserStats>)
    ensures r.None? <==> forall i :: 0 <= i < |rows| ==> rows[i].userId != user
    ensures r.Some? ==> r.value.userId == user && r.value == rows[FirstUserIndex(rows, user)]
  {
    var k := FirstUserIndex(rows, user);
    if k < |rows| then Some(rows[k]) else None
  }

  /** What the page shows once it is ready. */
  datatype EntryView = EntryView(
    playEnabled: bool,
    playLabel: Option<string>,
    maxStreakText: string,
    streakText: string)

  /** `userStats?.maxStreak.toString() || "0"`. */
  function MaxStreakText(u: Option<UserStats>): (s: string)
    ensures u.None? ==> s == "0"
    ensures u.Some? ==> AllDigits(s) && ValueOf(s) == u.value.maxStreak
    ensures |s| >= 1 && (s[0] == '0' ==> s == "0")
  {
    match u
    case None => "0"
    case Some(v) =>
      NatToStringRoundTrip(v.maxStreak);
      NatToString(v.maxStreak)
  }

  /** The `onReady` handler: computes today's key (which may throw), gates
      the play button on today's row, and fills in both streak counters.
      The page reads the clock twice: `now` is the read in
      `getUKDateString()`, `streakNow` the later one in `getCurrentStreak()`,
      taken after two awaited queries, so the two may fall on different UK
      days. */
  function EntryPage(now: int, streakNow: int, user: string, daily: seq<DailyStats>, users: seq<UserStats>,
                     streakRows: Result<seq<DailyStats>, string>): (v: Result<EntryView, RangeError>)
    ensures v.Success? <==> TodayKey(now).Success?
    ensures v.Success? ==>
      var k := FirstTodayIndex(daily, user, TodayKey(now).value);
      (!v.value.playEnabled <==> k < |daily| && |daily[k].riddlesSolved| == RiddlesPerDay)
    ensures v.Success? ==> (v.value.playLabel == Some(CompletedLabel) <==> !v.value.playEnabled)
    ensures v.Success? && v.value.playEnabled ==> v.value.playLabel.None?
    ensures v.Success? ==> v.value.maxStreakText == MaxStreakText(UserRow(users, user))
    ensures v.Success? ==> v.value.streakText == NatToString(CurrentStreak(streakNow, user, streakRows))
  {
    match TodayKey(now)
    case Failure(e) => Failure(e)
    case Success(today) =>
      var row := TodayRow(daily, user, today);
      var completed := row.Some? && |row.value.riddlesSolved| == RiddlesPerDay;
      Success(EntryView(
        !completed,
        if completed then Some(CompletedLabel) else None,
        MaxStreakText(UserRow(users, user)),
        NatToString(CurrentStreak(streakNow, user, streakRows))))
  }

  /** With no row for the user today, or one whose solved list has any
      length but three, the play button stays enabled. */
  lemma PlayEnabledUnlessThreeSolved(now: int, streakNow: int, user: string, daily: seq<DailyStats>,
                                     users: seq<UserStats>, streakRows: Result<seq<DailyStats>, string>)
    requires TodayKey(now).Success?
    requires forall i :: 0 <= i < |daily| && IsToday(daily[i], user, TodayKey(now).value)
                         ==> |daily[i].riddlesSolved| != RiddlesPerDay
    ensures EntryPage(now, streakNow, user, daily, users, streakRows).value.playEnabled
  {
  }

  /** 2025-11-01T23:30:00Z: November is outside the rule, so today's key is
      the UTC date, 2025-11-01; the instant a day earlier falls in October,
      is shifted an hour into November 1st, and yesterday's key is today's. */
  lemma YesterdayKeyRepeatsAfterOctober()
    ensures CivilFromDays(20393) == Civil(2025, 11, 1)
    ensures TodayKey(1762039800000) == Success(DayKey(20393))
    ensures FormatUkDate(Yesterday(1762039800000)) == Success(DayKey(20393))
  {
    var t := 1762039800000;
    CivilRoundTrip(Civil(2025, 11, 1));
    CivilRoundTrip(Civil(2025, 10, 31));
    DayFromYearByCycles(5, 0, 6, 0);
    assert Day(t) == 20393 && Day(t - MsPerDay) == 20392;
    assert DateUtils.UtcMonthIndex(t) == 10 && DateUtils.UtcMonthIndex(t - MsPerDay) == 9;
    var s := t - MsPerDay + 3600000;
    assert DateUtils.UkShift(t, 10) == t && DateUtils.UkShift(t - MsPerDay, 9) == s;
    assert Day(s) == 20393;
  }

  /** The calendar dates of day numbers 20178 to 20180. */
  lemma AroundAprilFirst2025()
    ensures CivilFromDays(20178) == Civil(2025, 3, 31)
    ensures CivilFromDays(20179) == Civil(2025, 4, 1)
    ensures CivilFromDays(20180) == Civil(2025, 4, 2)
  {
    DayFromYearByCycles(5, 0, 6, 0);
    assert DayFromYear(2025) == 20089;
    assert !InLeapYear(2025);
    assert DaysFromCivil(Civil(2025, 3, 31)) == 20178;
    assert DaysFromCivil(Civil(2025, 4, 1)) == 20179;
    assert DaysFromCivil(Civil(2025, 4, 2)) == 20180;
    CivilRoundTrip(Civil(2025, 3, 31));
    CivilRoundTrip(Civil(2025, 4, 1));
    CivilRoundTrip(Civil(2025, 4, 2));
  }

  /** 2025-04-01T23:30:00Z: April is inside the rule, so today's key is
      shifted to 2025-04-02, while the instant a day earlier is in March,
      unshifted, and yesterday's key is 2025-03-31, two days back. */
  lemma YesterdayKeySkipsAtApril()
    ensures CivilFromDays(20180) == Civil(2025, 4, 2) && CivilFromDays(20178) == Civil(2025, 3, 31)
    ensures TodayKey(1743550200000) == Success(DayKey(20180))
    ensures FormatUkDate(Yesterday(1743550200000)) == Success(DayKey(20178))
  {
    var t := 1743550200000;
    AroundAprilFirst2025();
    assert Day(t) == 20179 && Day(t - MsPerDay) == 20178;
    assert DateUtils.UtcMonthIndex(t) == 3 && DateUtils.UtcMonthIndex(t - MsPerDay) == 2;
    var s := t + 3600000;
    assert DateUtils.UkShift(t, 3) == s && DateUtils.UkShift(t - MsPerDay, 2) == t - MsPerDay;
    assert Day(s) == 20180;
  }
}

=== FILE: sequences.dfy ===
/** Facts about sequences that hold for any element type: no repeats,
    order-keeping sub-sequences, and the multiset of a sequence. */
module Sequences {

  predicate Distinct<T(==)>(s: seq<T>) {
    forall i, j :: 0 <= i < j < |s| ==> s[i] != s[j]
  }

  /** `a` is `b` with some elements left out, order kept. */
  predicate IsSubsequence<T(==)>(a: seq<T>, b: seq<T>)
    decreases |b|
  {
    if |a| == 0 then true
    else if |b| == 0 then false
    else if a[0] == b[0] then IsSubsequence(a[1..], b[1..])
    else IsSubsequence(a, b[1..])
  }

  lemma {:induction false} SubsequenceOfTail<T>(a: seq<T>, b: seq<T>)
    requires |b| > 0 && IsSubsequence(a, b[1..])
    ensures IsSubsequence(a, b)
    decreases |b|, 0
  {
    if |a| > 0 && a[0] == b[0] {
      // a[1..] is a subsequence of b[1..] as well: drop a[0] from its match.
      SubsequenceDropHead(a, b[1..]);
    }
  }

  lemma {:induction false} SubsequenceDropHead<T>(a: seq<T>, b: seq<T>)
    requires |a| > 0 && IsSubsequence(a, b)
    ensures IsSubsequence(a[1..], b)
    decreases |b|, 1
  {
    if |b| > 0 {
      if a[0] == b[0] {
        SubsequenceOfTail(a[1..], b);
      } else {
        SubsequenceDropHead(a, b[1..]);
        SubsequenceOfTail(a[1..], b);
      }
    }
  }

  lemma DistinctTail<T>(s: seq<T>)
    requires |s| > 0 && Distinct(s)
    ensures Distinct(s[1..])
  {
    forall i, j | 0 <= i < j < |s| - 1
      ensures s[1..][i] != s[1..][j]
    {
      assert s[1..][i] == s[i + 1] && s[1..][j] == s[j + 1];
    }
  }

  lemma DistinctCons<T>(x: T, s: seq<T>)
    requires x !in s && Distinct(s)
    ensures Distinct([x] + s)
  {
    var t := [x] + s;
    forall i, j | 0 <= i < j < |t|
      ensures t[i] != t[j]
    {
      if i == 0 {
        assert t[j] == s[j - 1];
      } else {
        assert t[i] == s[i - 1] && t[j] == s[j - 1];
      }
    }
  }

  lemma MultisetOfCons<T>(s: seq<T>)
    requires |s| > 0
    ensures multiset(s) == multiset{s[0]} + multiset(s[1..])
  {
    assert s == [s[0]] + s[1..];
  }
}

=== FILE: string_order.dfy ===
/** The order JavaScript's relational operators, and the document store's
    `.le` / `.descending` on string fields, use on strings: lexicographic by
    character, a proper prefix sorting first. A `char` here is a Unicode
    scalar value, so characters compare by code point; JavaScript compares
    UTF-16 code units, which orders differently only above U+FFFF. */
module StringOrder {

  /** `a < b` on strings. */
  predicate Less(a: string, b: string)
    decreases |a|
  {
    if |a| == 0 then |b| > 0
    else if |b| == 0 then false
    else if a[0] != b[0] then a[0] < b[0]
    else Less(a[1..], b[1..])
  }

  /** `a <= b` on strings. */
  predicate LessEq(a: string, b: string) {
    a == b || Less(a, b)
  }

  lemma {:induction false} LessIrreflexive(a: string)
    ensures !Less(a, a)
  {
    if |a| > 0 {
      LessIrreflexive(a[1..]);
    }
  }

  lemma {:induction false} LessTransitive(a: string, b: string, c: string)
    requires Less(a, b) && Less(b, c)
    ensures Less(a, c)
  {
    if |a| > 0 && a[0] == b[0] && b[0] == c[0] {
      LessTransitive(a[1..], b[1..], c[1..]);
    }
  }

  /** Any two strings are comparable: the order is total. */
  lemma {:induction false} LessTotal(a: string, b: string)
    ensures a == b || Less(a, b) || Less(b, a)
  {
    if |a| > 0 && |b| > 0 && a[0] == b[0] {
      LessTotal(a[1..], b[1..]);
      if a[1..] == b[1..] {
        assert a == [a[0]] + a[1..] && b == [b[0]] + b[1..];
      }
    }
  }

  lemma LessAsymmetric(a: string, b: string)
    requires Less(a, b)
    ensures !Less(b, a) && a != b
  {
    if Less(b, a) {
      LessTransitive(a, b, a);
      LessIrreflexive(a);
    }
    LessIrreflexive(a);
  }

  lemma LessEqTransitive(a: string, b: string, c: string)
    requires LessEq(a, b) && LessEq(b, c)
    ensures LessEq(a, c)
  {
    if a != b && b != c {
      LessTransitive(a, b, c);
    }
  }

  /** Comparing two concatenations whose first parts have the same length
      compares the first parts, and the second parts only on a tie. This is
      what makes fixed-width fields sort field by field. */
  lemma {:induction false} LessConcat(a: string, b: string, c: string, d: string)
    requires |a| == |c|
    ensures Less(a + b, c + d) <==> Less(a, c) || (a == c && Less(b, d))
  {
    if |a| == 0 {
      assert a + b == b && c + d == d;
    } else {
      assert (a + b)[0] == a[0] && (c + d)[0] == c[0];
      assert (a + b)[1..] == a[1..] + b && (c + d)[1..] == c[1..] + d;
      LessConcat(a[1..], b, c[1..], d);
      if a[0] == c[0] {
        assert a == c <==> a[1..] == c[1..] by {
          assert a == [a[0]] + a[1..] && c == [c[0]] + c[1..];
        }
      }
    }
  }
}

=== FILE: trading_page.dfy ===
/** The trading page's filter state: genre tags toggled over a fixed genre
    list, the `books` query that `loadListings` builds from the filters, and
    the per-listing display decisions of the repeater. */
module TradingPage {
  import opened Wrappers
  import opened Sequences
  import opened JsText

  /** The genre tags, in the order they are rendered. */
  const Genres: seq<string> := [
    "Classics", "Memoirs", "Historical Fiction", "Novels", "Mysteries",
    "Comedy", "Fantasy", "Science Fiction", "Non-Fiction", "History",
    "Dystopian", "Action & Adventure", "Thriller & Suspense", "Romance",
    "Literary Fiction", "Magic", "Graphic Novel", "Comics", "Coming of Age",
    "Young Adult", "Children's", "Short Story", "Memoir/Autobiography", "Food",
    "Art", "Science", "True Crime", "Humor", "Religion", "Parenting"
  ]

  /** The distance filter before the slider is moved, in miles. */
  const DefaultMaxDistance: int := 50

  /** Clicking tag `i` toggles its `selected` class and nothing else. */
  function Toggle(flags: seq<bool>, i: nat): (r: seq<bool>)
    requires i < |flags|
    ensures |r| == |flags| && r[i] == !flags[i]
    ensures forall j :: 0 <= j < |flags| && j != i ==> r[j] == flags[j]
  {
    flags[i := !flags[i]]
  }

  /** `querySelectorAll('.genre-tag.selected')` mapped to the tags' text:
      the genres whose tag is selected, in document order. */
  function Selected(genres: seq<string>, flags: seq<bool>): (r: seq<string>)
    requires |flags| == |genres|
    ensures |r| == SelectedCount(flags)
    ensures forall k :: 0 <= k < |r| ==> r[k] in genres
  {
    if |genres| == 0 then []
    else
      var rest := Selected(genres[1..], flags[1..]);
      assert forall k :: 0 <= k < |rest| ==> rest[k] in genres;
      (if flags[0] then [genres[0]] else []) + rest
  }

  /** How many tags are selected. */
  function SelectedCount(flags: seq<bool>): nat {
    if |flags| == 0 then 0 else (if flags[0] then 1 else 0) + SelectedCount(flags[1..])
  }

  /** A genre is selected exactly when one of its tags is. */
  lemma {:induction false} SelectedMembers(genres: seq<string>, flags: seq<bool>, g: string)
    requires |flags| == |genres|
    ensures g in Selected(genres, flags) <==> exists i :: 0 <= i < |genres| && flags[i] && genres[i] == g
  {
    if |genres| > 0 {
      SelectedMembers(genres[1..], flags[1..], g);
      if exists i :: 1 <= i < |genres| && flags[i] && genres[i] == g {
        var i :| 1 <= i < |genres| && flags[i] && genres[i] == g;
        assert flags[1..][i - 1] && genres[1..][i - 1] == g;
      }
      if exists i :: 0 <= i < |genres| - 1 && flags[1..][i] && genres[1..][i] == g {
        var i :| 0 <= i < |genres| - 1 && flags[1..][i] && genres[1..][i] == g;
        assert flags[i + 1] && genres[i + 1] == g;
      }
    }
  }

  /** The selection keeps the genre list's order. */
  lemma {:induction false} SelectedIsSubsequence(genres: seq<string>, flags: seq<bool>)
    requires |flags| == |genres|
    ensures IsSubsequence(Selected(genres, flags), genres)
  {
    if |genres| > 0 {
      SelectedIsSubsequence(genres[1..], flags[1..]);
      var rest := Selected(genres[1..], flags[1..]);
      if flags[0] {
        assert Selected(genres, flags) == [genres[0]] + rest;
        assert ([genres[0]] + rest)[1..] == rest;
      } else {
        assert Selected(genres, flags) == rest;
        SubsequenceOfTail(rest, genres);
      }
    }
  }

  /** Over a list without repeats, the selection has no repeats. */
  lemma {:induction false} SelectedDistinct(genres: seq<string>, flags: seq<bool>)
    requires |flags| == |genres| && Distinct(genres)
    ensures Distinct(Selected(genres, flags))
  {
    if |genres| > 0 {
      var rest := Selected(genres[1..], flags[1..]);
      DistinctTail(genres);
      SelectedDistinct(genres[1..], flags[1..]);
      if flags[0] {
        SelectedMembers(genres[1..], flags[1..], genres[0]);
        DistinctCons(genres[0], rest);
      }
    }
  }

  // The 435 pairs of genre names, compared in four blocks.
  lemma GenresDistinctFirstHalf()
    ensures forall i, j :: 0 <= i < j < 15 ==> Genres[i] != Genres[j]
  {
  }

  lemma GenresDistinctSecondHalf()
    ensures forall i, j :: 15 <= i < j < 30 ==> Genres[i] != Genres[j]
  {
  }

  lemma GenresDistinctAcrossLow()
    ensures forall i, j :: 0 <= i < 8 && 15 <= j < 30 ==> Genres[i] != Genres[j]
  {
  }

  lemma GenresDistinctAcrossHigh()
    ensures forall i, j :: 8 <= i < 15 && 15 <= j < 30 ==> Genres[i] != Genres[j]
  {
  }

  lemma GenresDistinct()
    ensures Distinct(Genres)
  {
    GenresDistinctFirstHalf();
    GenresDistinctSecondHalf();
    GenresDistinctAcrossLow();
    GenresDistinctAcrossHigh();
  }

  /** The page's filter state: tag flags, the genre list derived from them,
      the "my listings" toggle and the distance slider. */
  datatype FilterState = FilterState(
    flags: seq<bool>,
    selectedGenres: seq<string>,
    myListings: bool,
    maxDistance: int)

  /** `selectedGenres` is what the tag flags say it is. */
  predicate Consistent(s: FilterState) {
    |s.flags| == |Genres| && s.selectedGenres == Selected(Genres, s.flags)
  }

  /** In a consistent state `selectedGenres` lists selected genres in the
      genre list's order, each once. */
  lemma SelectionWellFormed(s: FilterState)
    requires Consistent(s)
    ensures IsSubsequence(s.selectedGenres, Genres) && Distinct(s.selectedGenres)
    ensures forall g :: g in s.selectedGenres <==> exists i :: 0 <= i < |Genres| && s.flags[i] && Genres[i] == g
  {
    GenresDistinct();
    SelectedIsSubsequence(Genres, s.flags);
    SelectedDistinct(Genres, s.flags);
    forall g
      ensures g in s.selectedGenres <==> exists i :: 0 <= i < |Genres| && s.flags[i] && Genres[i] == g
    {
      SelectedMembers(Genres, s.flags, g);
    }
  }

  /** The state after `renderGenreTags`: no tag selected, no genre filter. */
  function InitialState(myListings: bool): (s: FilterState)
    ensures Consistent(s) && s.selectedGenres == [] && s.maxDistance == DefaultMaxDistance
  {
    var flags := seq(|Genres|, _ => false);
    NoneSelected(Genres, flags);
    FilterState(flags, [], myListings, DefaultMaxDistance)
  }

  lemma {:induction false} NoneSelected(genres: seq<string>, flags: seq<bool>)
    requires |flags| == |genres| && forall i :: 0 <= i < |flags| ==> !flags[i]
    ensures Selected(genres, flags) == []
  {
    if |genres| > 0 {
      NoneSelected(genres[1..], flags[1..]);
    }
  }

  /** A click on tag `i`: toggle it, then rebuild `selectedGenres` from the
      selected tags. */
  function ClickTag(s: FilterState, i: nat): (r: FilterState)
    requires |s.flags| == |Genres| && i < |Genres|
    ensures Consistent(r)
    ensures r.myListings == s.myListings && r.maxDistance == s.maxDistance
    ensures Consistent(s) ==> (Genres[i] in r.selectedGenres <==> Genres[i] !in s.selectedGenres)
    ensures Consistent(s) ==> forall j :: 0 <= j < |Genres| && j != i ==>
              (Genres[j] in r.selectedGenres <==> Genres[j] in s.selectedGenres)
  {
    var flags := Toggle(s.flags, i);
    var r := FilterState(flags, Selected(Genres, flags), s.myListings, s.maxDistance);
    ClickTagMembers(s.flags, i);
    r
  }

  /** Over a genre list without repeats, toggling tag `i` changes the
      membership of genre `i` only. */
  lemma {:induction false} ToggleMembers(genres: seq<string>, flags: seq<bool>, i: nat)
    requires |flags| == |genres| && i < |genres| && Distinct(genres)
    ensures genres[i] in Selected(genres, Toggle(flags, i)) <==> genres[i] !in Selected(genres, flags)
    ensures forall j :: 0 <= j < |genres| && j != i ==>
              (genres[j] in Selected(genres, Toggle(flags, i)) <==> genres[j] in Selected(genres, flags))
  {
    var t := Toggle(flags, i);
    forall j | 0 <= j < |genres|
      ensures genres[j] in Selected(genres, t) <==> (if j == i then !flags[j] else flags[j])
      ensures genres[j] in Selected(genres, flags) <==> flags[j]
    {
      SelectedMembers(genres, t, genres[j]);
      SelectedMembers(genres, flags, genres[j]);
    }
  }

  /** Toggling tag `i` changes the membership of genre `i` only. */
  lemma ClickTagMembers(flags: seq<bool>, i: nat)
    requires |flags| == |Genres| && i < |Genres|
    ensures Genres[i] in Selected(Genres, Toggle(flags, i)) <==> Genres[i] !in Selected(Genres, flags)
    ensures forall j :: 0 <= j < |Genres| && j != i ==>
              (Genres[j] in Selected(Genres, Toggle(flags, i)) <==> Genres[j] in Selected(Genres, flags))
  {
    GenresDistinct();
    ToggleMembers(Genres, flags, i);
  }

  /** Clicking the same tag twice restores the state, `selectedGenres`
      included. */
  lemma ClickTwice(s: FilterState, i: nat)
    requires Consistent(s) && i < |Genres|
    ensures ClickTag(ClickTag(s, i), i) == s
  {
    assert Toggle(Toggle(s.flags, i), i) == s.flags;
  }

  /** The slider's `onInput`: the new distance bound. */
  function SlideTo(s: FilterState, miles: int): (r: FilterState)
    ensures r.maxDistance == miles && r.flags == s.flags && r.selectedGenres == s.selectedGenres
    ensures Consistent(s) ==> Consistent(r)
  {
    s.(maxDistance := miles)
  }

  /** A `books` row as the repeater sees it. */
  datatype Listing = Listing(
    id: string,
    status: string,
    ownerUserId: string,
    genres: seq<string>,
    maxDistance: int,
    personalTradeDescription: Option<string>)

  /** The query-builder steps `loadListings` chains onto `books`. */
  datatype Condition =
    | StatusEq(status: string)
    | OwnerEq(owner: string)
    | OwnerNe(owner: string)
    | GenresHasSome(values: seq<string>)
    | MaxDistanceLe(bound: int)

  /** What the store does with one condition. */
  predicate Matches(l: Listing, c: Condition) {
    match c
    case StatusEq(v) => l.status == v
    case OwnerEq(v) => l.ownerUserId == v
    case OwnerNe(v) => l.ownerUserId != v
    case GenresHasSome(vs) => exists i :: 0 <= i < |vs| && vs[i] in l.genres
    case MaxDistanceLe(b) => l.maxDistance <= b
  }

  /** The conditions `loadListings` builds, in order (the search-term clause
      is not part of this model). */
  function BuildQuery(user: string, s: FilterState): seq<Condition> {
    [StatusEq("active")]
      + [if s.myListings then OwnerEq(user) else OwnerNe(user)]
      + (if |s.selectedGenres| > 0 then [GenresHasSome(s.selectedGenres)] else [])
      + [MaxDistanceLe(s.maxDistance)]
  }

  predicate MatchesAll(l: Listing, q: seq<Condition>) {
    forall k :: 0 <= k < |q| ==> Matches(l, q[k])
  }

  /** A listing comes back from the built query exactly when it is active,
      owned by the user if "my listings" is on and by someone else if it is
      off, shares a genre with a non-empty selection, and lies within the
      slider's distance. */
  lemma QualifiesIff(l: Listing, user: string, s: FilterState)
    ensures MatchesAll(l, BuildQuery(user, s)) <==>
      && l.status == "active"
      && (if s.myListings then l.ownerUserId == user else l.ownerUserId != user)
      && (|s.selectedGenres| == 0 || exists g :: g in s.selectedGenres && g in l.genres)
      && l.maxDistance <= s.maxDistance
  {
    var q := BuildQuery(user, s);
    assert q[0] == StatusEq("active");
    assert q[1] == (if s.myListings then OwnerEq(user) else OwnerNe(user));
    if |s.selectedGenres| > 0 {
      assert |q| == 4 && q[2] == GenresHasSome(s.selectedGenres) && q[3] == MaxDistanceLe(s.maxDistance);
      if exists g :: g in s.selectedGenres && g in l.genres {
        var g :| g in s.selectedGenres && g in l.genres;
        var i :| 0 <= i < |s.selectedGenres| && s.selectedGenres[i] == g;
        assert Matches(l, q[2]);
      }
    } else {
      assert |q| == 3 && q[2] == MaxDistanceLe(s.maxDistance);
    }
  }

  /** The rows the query returns, in store order: every matching row, as
      often as it occurs, and nothing else. */
  function Filter(rows: seq<Listing>, q: seq<Condition>): (r: seq<Listing>)
    ensures |r| <= |rows| && IsSubsequence(r, rows)
    ensures forall l :: l in r <==> l in rows && MatchesAll(l, q)
    ensures forall l :: multiset(r)[l] == if MatchesAll(l, q) then multiset(rows)[l] else 0
  {
    if |rows| == 0 then []
    else
      var rest := Filter(rows[1..], q);
      MultisetOfCons(rows);
      if MatchesAll(rows[0], q) then
        var r := [rows[0]] + rest;
        assert r[1..] == rest;
        MultisetOfCons(r);
        r
      else
        SubsequenceOfTail(rest, rows);
        rest
  }

  /** What the listings area shows after `loadListings`. */
  datatype ListingsView = Shown(items: seq<Listing>) | NoResults | ErrorLightbox(message: string)

  /** `loadListings()`: `rows` is the `books` collection, or the message of
      the error the query throws. */
  function LoadListings(rows: Result<seq<Listing>, string>, user: string, s: FilterState): (v: ListingsView)
    ensures rows.Failure? <==> v.ErrorLightbox?
    ensures v.ErrorLightbox? ==> v.message == "Error loading listings: " + rows.error
    ensures v.Shown? ==> |v.items| > 0 && IsSubsequence(v.items, rows.value)
    ensures v.Shown? ==> forall l :: l in v.items <==> l in rows.value && MatchesAll(l, BuildQuery(user, s))
    ensures v.Shown? ==> forall l :: multiset(v.items)[l]
                                     == if MatchesAll(l, BuildQuery(user, s)) then multiset(rows.value)[l] else 0
    ensures v.NoResults? ==> forall l :: l in rows.value ==> !MatchesAll(l, BuildQuery(user, s))
  {
    match rows
    case Failure(msg) => ErrorLightbox("Error loading listings: " + msg)
    case Success(all) =>
      var items := Filter(all, BuildQuery(user, s));
      if |items| > 0 then Shown(items) else NoResults
  }

  /** "My listings" on and off select disjoint sets of listings. */
  lemma OwnershipSplitsListings(rows: seq<Listing>, user: string, s: FilterState)
    ensures var mine := Filter(rows, BuildQuery(user, s.(myListings := true)));
            var others := Filter(rows, BuildQuery(user, s.(myListings := false)));
            forall l :: l in mine ==> l !in others
  {
    var mine := Filter(rows, BuildQuery(user, s.(myListings := true)));
    var others := Filter(rows, BuildQuery(user, s.(myListings := false)));
    forall l | l in mine
      ensures l !in others
    {
      QualifiesIff(l, user, s.(myListings := true));
      QualifiesIff(l, user, s.(myListings := false));
    }
  }

  /** `hasPersonalSummary`: the description is present and is not only
      white space. */
  function HasPersonalSummary(l: Listing): (b: bool)
    ensures b <==> l.personalTradeDescription.Some?
                   && exists i :: 0 <= i < |l.personalTradeDescription.value|
                                  && !IsJsSpace(l.personalTradeDescription.value[i])
  {
    match l.personalTradeDescription
    case None => false
    case Some(d) =>
      TrimEmptyIffAllSpace(d);
      d != "" && Trim(d) != ""
  }

  /** The "mark as traded" button is shown on the user's own listings. */
  predicate TradedButtonVisible(l: Listing, user: string) {
    l.ownerUserId == user
  }

  /** With "my listings" on every shown listing offers the traded button;
      with it off none does. */
  lemma TradedButtonFollowsToggle(rows: Result<seq<Listing>, string>, user: string, s: FilterState)
    ensures var v := LoadListings(rows, user, s);
            v.Shown? ==> forall l :: l in v.items ==> (TradedButtonVisible(l, user) <==> s.myListings)
  {
    var v := LoadListings(rows, user, s);
    if v.Shown? {
      forall l | l in v.items
        ensures TradedButtonVisible(l, user) <==> s.myListings
      {
        QualifiesIff(l, user, s);
      }
    }
  }
}

=== FILE: wrappers.dfy ===
/** Failure-carrying datatypes shared by the page models.
    `Option` stands for a JavaScript value that may be missing (`undefined`,
    `null`, NaN), `Result` for a computation that may throw. */
module Wrappers {

  datatype Option<+T> = None | Some(value: T)

  datatype Result<+R, +E> = Success(value: R) | Failure(error: E)
}
